=== FILE: README.md ===
# Peak card game — a Dafny model of the rule engine

This project models the rule engine of the Peak card game and proves
properties about it. The engine has four parts:

- **Cards and deck** (`card.dfy`, module `Cards`). A card is a regular card
  of value 1..10 or a Peak card of value 0. The deck is a stack of 20 cards,
  with the top at the end of the sequence. It covers single and bounded
  multiple dealing, shuffling with an explicit random source, and reset.
- **Players** (`player.dfy`, module `Players`). A player is a name, a hand
  and two sticky flags, "disqualified" and "finished". It covers adding
  cards with the more-than-20 disqualification, removing the first equal
  card, the Peak/regular split of a hand, and the "can finish" test.
- **Rules** (`rules.dfy`, module `Rules`). These are the pure decisions:
  - playability (values one apart, with Peak as a wildcard);
  - the finishing table, where 8..10 are gated by the "high card played
    this round" flag;
  - the disqualification threshold and high-card detection;
  - winner selection and the rule-violation report.
- **Turn engine** (`game.dfy`, module `PeakGame`). A state machine over four
  seats, the deck, the discard pile, the turn index, the round number and
  the high-card flag. Its operations are setup, `play_card`, the Peak
  pickup-five effect, the penalty card for a bad finish, `draw_card`, turn
  advancement with round wrap and flag reset, game-over detection, and the
  options offered to a player.

Two more modules prove properties that relate several operations:

- `GameInvariants` (`invariants.dfy`) proves card conservation. Every action
  only moves cards between deck, hands and discard pile. After any sequence
  of actions, a game started from a fresh deck still holds its twenty cards.
  No action ever clears a player's status flag.
- `GameProperties` (`properties.dfy`) proves how an emptied hand is resolved
  and who is named winner. It also proves where the turn rests after a play,
  and that the offered options are exactly the accepted actions.

Every mutating method of the program is a pure function that returns the new
value. Players are named by their seat index (0..3). An operation that can
be refused returns a `Step(ok, game)`, and a refused action leaves the game
unchanged. Construction with the wrong number of names returns a `Result`
error.

The code fixes these rules, and the model follows them:

- The deck holds 20 cards: regular 1..10 once each, plus ten Peaks. No other
  kind of card exists.
- The turn always steps forward by one seat. There is no play direction.
- An empty deck is never refilled from the discard pile; drawing from it is
  refused.
- A regular card may only follow a regular card whose value is at most one
  away.

Several behaviours of the code are modelled as written:

- `play_card` raises the high-card flag *before* it checks whether the
  player may finish. A hand emptied on an 8, 9 or 10 therefore always
  finishes (`GameProperties.FinishGateIsCardRule`).
- Any finish ends the game. With two or more players still active, the
  winner is the first finished player in seat order. With exactly one other
  player active, that other player is named winner, not the finisher
  (`GameProperties.FinishWinner`).
- After a finish the turn index is not advanced. Neither play nor draw
  looks at the game-over flag.
- A Peak card's victim is the first active seat after the current one,
  wrapping round. When the player is the only active one, this can be the
  player who played the card.
- Setup deals `min(7, remaining)` cards to each seat in turn. On the 20-card
  deck this gives 7, 7, 6 and 0 cards and leaves the deck empty
  (`GameInvariants.SetupDealsSevenSevenSixNone`).

## Model

| member | source | states |
|---|---|---|
| Cards.CardEquality | card.py:40-48 | Two cards are equal exactly when value and type agree; a card is a Peak card exactly when its type is Peak |
| Cards.CanFinishOn | card.py:50-73 | The card-level finishing rule holds exactly for regular cards of value 5, 6 or 8..10 (never for Peak, 1..4, 7 or other values) |
| Cards.CreateDeck | card.py:85-95 | The unshuffled deck has 20 cards: regular 1..10 in order at positions 0..9, then ten Peak cards |
| Cards.RegularRun | card.py:89-91 | The run from `from` to `to` has max(to - from, 0) cards, the i-th being the regular card of value from + i |
| Cards.PeakRun | card.py:93-95 | n Peak cards, and only Peak cards |
| Cards.RegularRunCount | card.py:89-91 | The regular-card loop yields exactly one copy of each regular value in its range and nothing else |
| Cards.PeakRunCount | card.py:93-95 | The Peak loop yields exactly n Peak cards and nothing else |
| Cards.FreshDeckComposition | card.py:85-95 | A fresh deck holds one regular card of each value 1..10, ten Peak cards, and no other card |
| Cards.Shuffle | card.py:97-99 | Shuffling (Fisher-Yates driven by an explicit random source) keeps the deck size and exactly the same multiset of cards |
| Cards.NewDeck | card.py:79-83 | A new deck has 20 cards with the fresh-deck composition, whatever the random draws |
| Cards.Reset | card.py:139-142 | Whatever the deck held before, after reset it has 20 cards with the fresh-deck composition |
| Cards.DealCard | card.py:101-110 | A card is dealt exactly when the deck is non-empty; the dealt card was the top and the rest is the deck without it; an empty deck is left unchanged |
| Cards.DealCards | card.py:112-129 | Dealing n cards yields min(max(n,0), remaining) cards; the rest of the deck followed by the dealt cards reversed is the old deck |
| Cards.DealCardsLeavesBottom | card.py:112-129 | The deck left after dealing is the untouched bottom of the old deck (the old deck shortened by the number of cards dealt) |
| Cards.DealCardsPopOrder | card.py:122-129 | The i-th card dealt is the i-th card from the top of the old deck |
| Cards.DealCardsConserves | card.py:112-129 | Dealing creates and loses no card: rest plus dealt cards is the old deck as a multiset |
| Cards.EmptyIffNothingToDeal | card.py:131-137 | A deck is empty exactly when no cards remain, exactly when dealing one card yields none, and then dealing five yields none |
| Players.NewPlayer | player.py:12-22 | A new player has the given name and an empty hand, is neither disqualified nor finished, and is active |
| Players.AddCard | player.py:32-43 | The card is appended at the end; the player is disqualified afterwards exactly when already disqualified or the hand now exceeds 20; name and finished flag are kept |
| Players.AddCards | player.py:45-53 | The cards are appended in order; the player ends disqualified exactly when already disqualified or a non-empty batch takes the hand past 20 |
| Players.AddCardsConcat | player.py:45-53 | Adding two batches one after the other equals adding their concatenation |
| Players.RemoveCard | player.py:55-69 | A card is removed exactly when an equal card is in the hand; then the first equal card is dropped and the others keep their order; otherwise the player is unchanged; flags and name are kept |
| Players.RemoveCardTakesOneCopy | player.py:55-69 | Removal shortens the hand by one and takes exactly one copy of the card; putting it back at its old position restores the hand |
| Players.PeakCards | player.py:96-98 | The selection holds only Peak cards and every Peak card of the hand |
| Players.RegularCards | player.py:100-102 | The selection holds only regular cards and every regular card of the hand |
| Players.PeakRegularPartition | player.py:96-102 | The Peak and regular selections together are exactly the hand's cards (as a multiset and in number) |
| Players.PeakCardsKeepOrder | player.py:96-98 | Selecting Peak cards from a concatenation concatenates the selections, so hand order is kept |
| Players.RegularCardsKeepOrder | player.py:100-102 | Selecting regular cards from a concatenation concatenates the selections, so hand order is kept |
| Players.HasFinisher | player.py:114-119 | The scan succeeds exactly when some card of the hand satisfies the card-level finishing rule |
| Players.CanFinishGame | player.py:104-119 | A player can finish exactly when not disqualified and some card in the hand satisfies the card-level rule; this implies a non-empty hand |
| Players.Disqualify | player.py:134-136 | The player becomes disqualified and inactive; hand, name and finished flag are kept |
| Players.FinishGame | player.py:138-140 | The player becomes finished and inactive; hand, name and disqualified flag are kept |
| Players.ResetPlayer | player.py:151-155 | Reset empties the hand and clears both flags, keeping the name |
| Players.ResetIsNew | player.py:151-155 | A reset player equals a new player of the same name |
| Players.ActivityFollowsFlags | player.py:142-149 | A player is active exactly when neither disqualified nor finished; disqualifying or finishing makes them inactive, a reset makes them active, and adding or removing cards never makes an inactive player active |
| Rules.CanPlayCard | rules.py:13-42 | A Peak card is always playable, as is any card on an empty pile or on a Peak; otherwise a regular card is playable exactly when its value is within one of the last card's |
| Rules.PlayabilityIsSymmetric | rules.py:37-40 | Card a may follow b exactly when b may follow a |
| Rules.CanFinishOnCard | rules.py:44-76 | The finishing table: Peak and 1..4 never finish, 5..6 always finish, 8..10 finish exactly when a high card was played this round, 7 and all other values never finish |
| Rules.FinishTableRefinesCardRule | rules.py:56-76 | The game-level table never allows more than the card-level rule; with the flag raised they agree; with the flag down it is the card-level rule minus 8..10 |
| Rules.DisqualifyThreshold | rules.py:78-89 | 20 cards are allowed and 21 are not; adding a card raises the flag exactly when the threshold rule says so |
| Rules.HighCardsAreGated | rules.py:101-112 | High-value cards are exactly the cards whose finish depends on the high-card flag |
| Rules.ActiveCount | rules.py:133-134 | The number of active players is at most the number of players, and zero exactly when nobody is active |
| Rules.FirstActive | rules.py:150-154 | Returns the seat of the first active player, with no active seat before it, or none when nobody is active |
| Rules.FirstFinished | rules.py:160-163 | Returns the seat of the first finished player, with no finished seat before it, or none when nobody has finished |
| Rules.GetWinner | rules.py:139-165 | Exactly one active player: that player wins. None active: no winner. Otherwise there is a winner exactly when someone finished, and it is the first finished seat |
| Rules.OverfullMessages | rules.py:127-130 | One disqualification message per player with more than 20 cards who is not yet disqualified, and only for such players; no message exactly when there is no such player |
| Rules.ValidateGameState | rules.py:114-137 | The report is the disqualification messages of `OverfullMessages` (one per overfull seat, in seat order) followed by the game-end message exactly when at most one player is active; that message appears at most once; the report is empty exactly when two or more are active and nobody is overfull |
| Rules.OverfullMessagesSingle | rules.py:127-130 | A single seat yields one message exactly when its player is overfull, and none otherwise |
| Rules.OverfullMessagesConcat | rules.py:127-130 | The messages follow seat order: checking two runs of seats concatenates their messages, so no seat is reported twice |
| PeakGame.NewGame | game.py:15-32 | Fails exactly when the number of names is not 4, reporting the required count, 4; otherwise seat 0 to move, not over, no winner, flag down, round 1, empty discard, the given deck, a new player per name |
| PeakGame.DealHandsLeavesBottom | game.py:38-41 | Dealing the hands leaves the untouched bottom of the deck, short by seven cards per seat (or empty) |
| PeakGame.DealHands | game.py:38-41 | Dealing yields one player per seat and leaves the deck short by seven cards per seat, or empty; seat i is its old self after `add_cards` of its run `SetupCards(deck, i)` — the up to seven cards just below the 7i already dealt off the top — in pop order, topmost first |
| PeakGame.DealHandsStep | game.py:38-41 | Dealing the first seat the top run and the later seats from the rest of the deck gives every seat its run of the full deck |
| PeakGame.SetupGame | game.py:34-44 | Setup keeps the game's shape, the discard pile, the turn index and the round, and clears no flag |
| PeakGame.SetupDeals | game.py:34-44 | After setup each seat is its old self after `add_cards` of its run of the deck, popped top first (so its hand is the old hand followed by that run reversed, and its disqualified flag follows the more-than-20 rule); the deck is its untouched bottom, short by seven cards per seat |
| PeakGame.LastPlayed | game.py:50-52 | The last played card is the top of the discard pile, and there is none exactly when the pile is empty |
| PeakGame.ScanActive | game.py:136-142 | The scan returns the first offset from which the seat after the start is active, with every earlier scanned seat inactive, or none when every scanned seat is inactive |
| PeakGame.ScanFindsAnyActive | game.py:132-142 | A full scan round the table finds an active player exactly when one exists |
| PeakGame.NextActivePlayer | game.py:132-142 | The next active player is none exactly when nobody is active; otherwise it is an active seat and every seat passed over on the way is inactive |
| PeakGame.CheckGameOver | game.py:195-208 | The game is over afterwards exactly when it already was, at most one player is active, or someone has finished; the rules' winner is recorded when there is one; nothing else changes |
| PeakGame.Advance | game.py:144-162 | With someone active the turn moves to an active seat, all skipped seats are inactive, and the round grows by one exactly when the turn index wrapped; the high-card flag survives only within the round; seats, deck, discard pile, the game-over flag and the winner are kept; with nobody active the turn index stays, the game is over and the winner is kept (none is chosen) |
| PeakGame.AdvancePassesTurn | game.py:144-162 | Advancing rests the turn on the first active seat after the current one, possibly the same seat; the round grows exactly on a wrap and the flag survives only within the round; the winner is kept, and so is the game-over flag while someone is active; with nobody active the turn stays put and the game is over |
| PeakGame.PutDown | game.py:81-89 | The card's first copy leaves the current hand and goes on top of the discard pile; the flag is raised by a high card; every other seat is unchanged |
| PeakGame.PickUp | game.py:123-130 | The cards go to the end of the hand; the player is disqualified afterwards exactly when already disqualified or the hand exceeds 20 |
| PeakGame.HandlePeak | game.py:117-130 | With nobody active nothing changes; otherwise only the next active player changes: they pick up the top cards dealt from the deck, and the deck keeps the rest |
| PeakGame.PeakHits | game.py:122-130 | The victim picks up the top Peak penalty cards, the deck keeps the rest, and no other seat changes |
| PeakGame.PeakPenaltyFromTop | game.py:117-130 | The victim keeps their hand and gains min(5, deck) cards that, reversed, are exactly the top of the deck; the deck keeps its bottom |
| PeakGame.AfterEffects | game.py:81-94 | After the card is down, the discard pile has it on top and the flag is raised by a high card; a regular card has no further effect, a Peak card then makes the next active player pick up the penalty; no finished flag changes |
| PeakGame.Penalty | game.py:103-110 | On a non-empty deck the current player is their old self after `add_card` of the top card (hand, flags and the more-than-20 rule) and the deck loses that card; on an empty deck nothing changes; other seats are unchanged |
| PeakGame.Conclude | game.py:96-113 | A hand that still holds cards passes the turn on, changing no seat; an emptied hand on a card that may not finish takes the penalty card and passes the turn on; passing the turn keeps the winner and, while someone is active, the game-over flag; an emptied hand on a finishing card finishes the player and ends the game with the turn, round and flag unchanged |
| PeakGame.PlayCard | game.py:54-115 | A play is accepted exactly when it is the player's turn, the card is in hand and playable on the pile; a refused play changes nothing; an accepted card becomes the last played card; a hand emptied on a non-finishing card takes the penalty card off the top of the deck; a hand emptied on a finishing card finishes the player with the deck, turn and round unchanged; unless the play finishes the player, the turn passes on from the mover, the round grows exactly on a wrap, the flag (raised by a high card) survives only within the round, and the winner and (while someone is active) the game-over flag are kept; when the mover keeps cards, the seats and deck are those after the card and its effect |
| PeakGame.DrawCard | game.py:165-193 | A draw is accepted exactly when it is the player's turn and the deck is non-empty; the top card joins the end of the hand, disqualifying above 20, the drawer's finished flag kept and other seats unchanged; the turn passes on from the drawer to the first active seat, the round grows exactly on a wrap, the flag survives only within the round, and the winner and (while someone is active) the game-over flag are kept |
| PeakGame.Receive | game.py:181-187 | The drawn card joins the end of the drawer's hand, the drawer keeps their name and finished flag, and is disqualified exactly when that hand now holds more than 20 cards or already was; no other seat changes, and nothing of the game outside the seats changes |
| PeakGame.PlayableCards | game.py:223-228 | A card is offered exactly when it is in the hand and playable on the last card, with as many copies as the hand holds |
| PeakGame.PlayableCardsKeepOrder | game.py:223-228 | The offered cards keep hand order: filtering a concatenation concatenates the filtered parts |
| PeakGame.PlayerOptions | game.py:210-232 | Nothing is offered unless it is the player's turn and they are active; then every playable card of the hand, once per copy held, and nothing else, and drawing exactly when the deck is non-empty |
| GameInvariants.NewGameHoldsDeck | game.py:25-27 | A new game holds exactly the cards of its deck |
| GameInvariants.DealHandsConserves | game.py:38-41 | Dealing the hands moves cards from the deck to the hands without creating or losing any |
| GameInvariants.SetupConserves | game.py:34-41 | Setup keeps the game's multiset of cards |
| GameInvariants.PutDownConserves | game.py:82-83 | Putting a card down moves it from the hand to the discard pile |
| GameInvariants.HandlePeakConserves | game.py:122-124 | The Peak pickup moves cards from the deck to a hand |
| GameInvariants.PenaltyConserves | game.py:107-109 | The penalty card moves from the deck to the hand |
| GameInvariants.AfterEffectsConserve | game.py:81-94 | Putting the card down and applying its effect keep the game's cards |
| GameInvariants.PlayCardConserves | game.py:54-115 | A play, accepted or not, keeps the game's cards |
| GameInvariants.DrawCardConserves | game.py:179-181 | A draw, accepted or not, keeps the game's cards |
| GameInvariants.ApplyConserves | game.py:54-193 | Every action keeps the game's cards and clears no flag |
| GameInvariants.RunPreserves | game.py:54-193 | Any sequence of actions keeps the game valid, keeps its cards, and never clears a flag or changes a name |
| GameInvariants.TwentyCardsForever | game.py:15-32 | A game started from a fresh deck in any order holds exactly the fresh deck's twenty cards after any sequence of actions |
| GameInvariants.SetupDealsSevenSevenSixNone | game.py:34-41 | Setting up a new game on 20 cards deals 7, 7, 6 and 0 cards and empties the deck |
| GameProperties.FinishGateIsCardRule | game.py:87-98 | Within a play the finishing table, consulted after the flag update, agrees with the card-level rule |
| GameProperties.EmptiedHand | game.py:96-113 | An emptied hand on a finishing card finishes the player, ends the game, keeps the turn, the round, the deck and every other seat; on any other card the player takes the top card of the deck as penalty if there is one, keeps their finished flag, and nothing else changes before the turn passes |
| GameProperties.PlayPassesTurn | game.py:81-115 | A regular card played from a hand of two or more cards takes the card's first copy out of the hand, changes no other seat and not the deck, and passes the turn on from the mover, keeping the winner |
| GameProperties.FinishWinner | game.py:97-101 | After a finish the finisher wins if two or more remain active and nobody earlier finished; with exactly one left active, that other player wins |
| GameProperties.TurnRestsOnActive | game.py:96-115 | After an accepted play the turn rests on an active player, unless nobody is active or the finisher keeps it in a finished game |
| GameProperties.OptionsAreLegalActions | game.py:210-232 | A card is offered exactly when the engine would accept that play from an active player, and drawing is offered exactly when a draw would be accepted |

## Left out

- `main.py` (the interactive console loop) and `create_favicon.py` (image
  drawing) are not part of this model. They are input/output with no game
  logic.
- All console output: the `print` calls, `_display_game_state`,
  `display_game_state`, `__str__`, `__repr__` and `show_hand`.
- Randomness: `random.shuffle` is modelled by `Cards.Shuffle`, which reads
  its random draws from an explicit sequence. `PeakGame.NewGame` takes the
  already shuffled deck as a parameter instead of building one. For such a
  deck, `Cards.NewDeck` gives the composition.
- Player identity: the code compares `Player` objects by identity. The model
  names players by seat index, so "the caller is the current player" is
  `who == g.current`.
- Truthiness tests on objects (`if card:`, `if next_player:`, `if winner:`)
  are always true for non-`None` objects. They are modelled as tests for
  `Some`.
- The trivial accessors `get_hand_size`, `has_cards`, `cards_remaining`,
  `is_empty`, `get_current_player`, `is_game_over` and the game's
  `get_winner` are fields or one-line functions. `CardsRemaining` and
  `IsEmpty` are related by `Cards.EmptyIffNothingToDeal`.
- The constant getters `get_peak_card_penalty`,
  `is_valid_starting_hand_size`, `get_max_players` and `get_min_players`
  are the constants `PeakPenalty`, `StartingHandSize`, `MaxPlayers` and
  `MinPlayers`.
- `Player.get_playable_cards` returns a copy of the hand and is not used by
  the engine. The engine's own filter is `PeakGame.PlayableCards`.
- The test expecting 7 cards in every hand after setup cannot hold on a
  20-card deck and is not modelled. `GameInvariants.SetupDealsSevenSevenSixNone`
  states what the code deals.
- Players.PeakCards: the contract states membership only. Hand order is
  stated separately by `Players.PeakCardsKeepOrder`, and completeness by
  `Players.PeakRegularPartition`.
- Players.RegularCards: the same, with `Players.RegularCardsKeepOrder`.
- Rules.OverfullMessages: the contract states membership only: every
  overfull player is reported and every message names one. That there is
  exactly one message per overfull seat, in seat order, is stated by
  `Rules.OverfullMessagesSingle` and `Rules.OverfullMessagesConcat`.
- The messages of `validate_game_state` are strings built from the player's
  name. The model returns the `Violation` values `ShouldBeDisqualified(name)`
  and `GameShouldEnd` in their place; the wording is not modelled.
- PeakGame.Conclude: for a finishing play the contract does not name the
  winner. That is stated by `GameProperties.FinishWinner`.
- PeakGame.SetupGame: the contract states only what setup keeps. What each
  seat is dealt is stated by `PeakGame.SetupDeals`.
- PeakGame.HandlePeak: the contract names the dealt cards through
  `Cards.DealCards`. Their number and their position on the deck are stated
  by `PeakGame.PeakPenaltyFromTop`.

=== FILE: card.dfy ===
/** Cards and the 20-card deck of the Peak card game (card.py). */
module Cards {
  import opened Wrappers

  /** The two kinds of card that exist in this game. */
  datatype CardType = Regular | Peak

  /** A card is its printed value (1..10 for regular cards, 0 for Peak
      cards) and its type. Two cards are equal exactly when value and type
      agree, which is Dafny's structural equality on this datatype. */
  datatype Card = Card(value: int, kind: CardType) {

    predicate IsPeakCard() {
      kind == Peak
    }
  }

  /** `Card.can_finish_on`, the card-level finishing rule: the card may end
      a hand, leaving the "high card played this round" condition on 8..10
      to the game. */
  function CanFinishOn(c: Card): (r: bool)
    ensures r <==> c.kind == Regular && (5 <= c.value <= 6 || 8 <= c.value <= 10)
  {
    if c.IsPeakCard() then false
    else if 1 <= c.value <= 4 then false
    else if 5 <= c.value <= 6 then true
    else if 8 <= c.value <= 10 then true
    else false
  }

  const PeakCard := Card(0, Peak)

  /** Number of Peak cards in a fresh deck. */
  const PeakCopies := 10

  /** Size of a fresh deck: one regular card per value 1..10 plus the Peaks. */
  const DeckSize := 20

  function Min(a: int, b: int): int {
    if a <= b then a else b
  }

  function Max(a: int, b: int): int {
    if a <= b then b else a
  }

  /** Card equality is fieldwise equality. */
  lemma CardEquality(a: Card, b: Card)
    ensures a == b <==> a.value == b.value && a.kind == b.kind
    ensures a.IsPeakCard() <==> a.kind == Peak
  {
  }

  /** A deck is a stack of cards whose top is the LAST element. */
  datatype Deck = Deck(cards: seq<Card>)

  /** Regular cards with values `from`, `from + 1`, ..., `to - 1`, in order. */
  function RegularRun(from: int, to: int): (s: seq<Card>)
    decreases to - from
    ensures |s| == Max(to - from, 0)
    ensures forall i :: 0 <= i < |s| ==> s[i] == Card(from + i, Regular)
  {
    if from >= to then [] else [Card(from, Regular)] + RegularRun(from + 1, to)
  }

  /** `n` Peak cards. */
  function PeakRun(n: int): (s: seq<Card>)
    decreases n
    ensures |s| == Max(n, 0)
    ensures forall i :: 0 <= i < |s| ==> s[i] == PeakCard
  {
    if n <= 0 then [] else [PeakCard] + PeakRun(n - 1)
  }

  /** The unshuffled deck: regular 1..10 followed by ten Peaks. */
  function CreateDeck(): (d: Deck)
    ensures |d.cards| == DeckSize
    ensures forall i :: 0 <= i < 10 ==> d.cards[i] == Card(i + 1, Regular)
    ensures forall i :: 10 <= i < DeckSize ==> d.cards[i] == PeakCard
  {
    Deck(RegularRun(1, 11) + PeakRun(PeakCopies))
  }

  /** How many copies of `c` a fresh deck holds. */
  function FreshCount(c: Card): nat {
    if c == PeakCard then PeakCopies
    else if c.kind == Regular && 1 <= c.value <= 10 then 1
    else 0
  }

  lemma {:induction false} RegularRunCount(from: int, to: int, c: Card)
    decreases to - from
    ensures multiset(RegularRun(from, to))[c]
            == if c.kind == Regular && from <= c.value < to then 1 else 0
  {
    if from < to {
      assert RegularRun(from, to) == [Card(from, Regular)] + RegularRun(from + 1, to);
      RegularRunCount(from + 1, to, c);
    }
  }

  lemma {:induction false} PeakRunCount(n: int, c: Card)
    decreases n
    ensures multiset(PeakRun(n))[c] == if c == PeakCard then Max(n, 0) else 0
  {
    if n > 0 {
      assert PeakRun(n) == [PeakCard] + PeakRun(n - 1);
      PeakRunCount(n - 1, c);
    }
  }

  /** A fresh deck holds one regular card of each value 1..10, ten Peak
      cards, and nothing else. */
  lemma FreshDeckComposition(c: Card)
    ensures multiset(CreateDeck().cards)[c] == FreshCount(c)
  {
    RegularRunCount(1, 11, c);
    PeakRunCount(PeakCopies, c);
  }

  /** `random.shuffle`: the Fisher-Yates pass of Python's library, with the
      random source made explicit. `rand[k]` supplies the k-th random draw;
      the swap partner of position i is `rand[k] % (i + 1)`, and a missing
      draw leaves position i in place. */
  method Shuffle(d: Deck, rand: seq<nat>) returns (s: Deck)
    ensures |s.cards| == |d.cards|
    ensures multiset(s.cards) == multiset(d.cards)
  {
    var a := d.cards;
    var i := |a| - 1;
    var k := 0;
    while i >= 1
      invariant -1 <= i < |a|
      invariant |a| == |d.cards|
      invariant multiset(a) == multiset(d.cards)
      decreases i
    {
      var j := if k < |rand| then rand[k] % (i + 1) else i;
      a := a[i := a[j]][j := a[i]];
      i := i - 1;
      k := k + 1;
    }
    s := Deck(a);
  }

  /** `Deck()`: build the fresh deck and shuffle it. */
  method NewDeck(rand: seq<nat>) returns (d: Deck)
    ensures |d.cards| == DeckSize
    ensures forall c :: multiset(d.cards)[c] == FreshCount(c)
  {
    d := Shuffle(CreateDeck(), rand);
    forall c
      ensures multiset(d.cards)[c] == FreshCount(c)
    {
      FreshDeckComposition(c);
    }
  }

  /** `Deck.reset`: whatever the deck held, it becomes a freshly shuffled
      full deck. */
  method Reset(oldDeck: Deck, rand: seq<nat>) returns (d: Deck)
    ensures |d.cards| == DeckSize
    ensures forall c :: multiset(d.cards)[c] == FreshCount(c)
  {
    d := NewDeck(rand);
  }

  /** The outcome of dealing one card: the card (None on an empty deck)
      and the deck left behind. */
  datatype Dealt = Dealt(card: Option<Card>, rest: Deck)

  /** `deal_card`: pop the top card. */
  function DealCard(d: Deck): (r: Dealt)
    ensures r.card.Some? <==> |d.cards| > 0
    ensures r.card.Some? ==> r.rest.cards + [r.card.value] == d.cards
    ensures r.card.None? ==> r.rest == d
  {
    if |d.cards| > 0 then Dealt(Some(d.cards[|d.cards| - 1]), Deck(d.cards[..|d.cards| - 1]))
    else Dealt(None, d)
  }

  /** The outcome of dealing several cards, in the order they were popped. */
  datatype DealtMany = DealtMany(cards: seq<Card>, rest: Deck)

  /** `s` back to front. */
  function Reverse(s: seq<Card>): (r: seq<Card>)
    ensures |r| == |s|
  {
    seq(|s|, i requires 0 <= i < |s| => s[|s| - 1 - i])
  }

  /** Reversing a non-empty sequence puts its first element last. */
  lemma ReverseCons(s: seq<Card>)
    requires s != []
    ensures Reverse(s) == Reverse(s[1..]) + [s[0]]
  {
    var r, t := Reverse(s), Reverse(s[1..]) + [s[0]];
    forall i | 0 <= i < |s|
      ensures r[i] == t[i]
    {
      if i < |s| - 1 {
        assert t[i] == Reverse(s[1..])[i] == s[1..][|s| - 2 - i];
      }
    }
  }

  lemma ReverseReverse(s: seq<Card>)
    ensures Reverse(Reverse(s)) == s
  {
  }

  /** `deal_cards(count)`: pop up to `count` cards, stopping at an empty
      deck. The dealt cards, reversed, are exactly the top of the deck
      that was removed. */
  function DealCards(d: Deck, count: int): (r: DealtMany)
    decreases |d.cards|
    ensures |r.cards| == Min(Max(count, 0), |d.cards|)
    ensures r.rest.cards + Reverse(r.cards) == d.cards
  {
    if count <= 0 then DealtMany([], d)
    else
      var one := DealCard(d);
      match one.card
      case None => DealtMany([], d)
      case Some(c) =>
        var more := DealCards(one.rest, count - 1);
        assert ([c] + more.cards)[1..] == more.cards;
        ReverseCons([c] + more.cards);
        DealtMany([c] + more.cards, more.rest)
  }

  /** The deck left after `deal_cards` is the untouched bottom of the old deck. */
  lemma DealCardsLeavesBottom(d: Deck, count: int)
    ensures DealCards(d, count).rest.cards == d.cards[..|d.cards| - |DealCards(d, count).cards|]
  {
    var r := DealCards(d, count);
    assert d.cards == r.rest.cards + Reverse(r.cards);
  }

  /** The i-th card dealt was the i-th card from the top of the deck. */
  lemma DealCardsPopOrder(d: Deck, count: int, i: nat)
    requires i < |DealCards(d, count).cards|
    ensures DealCards(d, count).cards[i] == d.cards[|d.cards| - 1 - i]
  {
    var r := DealCards(d, count);
    TopReversed(d.cards, r.rest.cards, r.cards, i);
  }

  /** If `s` is `bottom` followed by `top` reversed, then `top[i]` is the
      i-th element of `s` from the end. */
  lemma TopReversed(s: seq<Card>, bottom: seq<Card>, top: seq<Card>, i: nat)
    requires s == bottom + Reverse(top) && i < |top|
    ensures top[i] == s[|s| - 1 - i]
  {
    var j := |top| - 1 - i;
    assert s[|bottom| + j] == Reverse(top)[j];
  }

  lemma {:induction false} ReverseKeepsCards(s: seq<Card>)
    ensures multiset(Reverse(s)) == multiset(s)
  {
    if s != [] {
      ReverseKeepsCards(s[1..]);
      ReverseCons(s);
      assert s == [s[0]] + s[1..];
    }
  }

  /** Dealing moves cards out of the deck without creating or losing any. */
  lemma DealCardsConserves(d: Deck, count: int)
    ensures multiset(DealCards(d, count).rest.cards) + multiset(DealCards(d, count).cards)
            == multiset(d.cards)
  {
    var r := DealCards(d, count);
    ReverseKeepsCards(r.cards);
    assert multiset(d.cards) == multiset(r.rest.cards) + multiset(Reverse(r.cards));
  }

  function CardsRemaining(d: Deck): nat {
    |d.cards|
  }

  predicate IsEmpty(d: Deck) {
    |d.cards| == 0
  }

  /** An empty deck is one with no cards remaining, and exactly the deck
      from which nothing can be dealt. */
  lemma EmptyIffNothingToDeal(d: Deck)
    ensures IsEmpty(d) <==> CardsRemaining(d) == 0
    ensures IsEmpty(d) <==> DealCard(d).card.None?
    ensures IsEmpty(d) ==> DealCards(d, 5).cards == []
  {
  }
}

=== FILE: game.dfy ===
/** The turn engine of the Peak card game: a sequential state machine over
    the players, the deck, the discard pile, the turn index, the round
    number and the "high card played this round" flag (game.py).
    Players are named by their seat index. */
module PeakGame {
  import opened Wrappers
  import opened Cards
  import opened Players
  import opened Rules

  datatype Game = Game(
    players: seq<Player>,
    deck: Deck,
    discard: seq<Card>,
    current: nat,
    gameOver: bool,
    winner: Option<nat>,
    highCard: bool,
    round: nat)

  /** The shape every game keeps: four seats, a turn index and a winner
      that both name a seat. */
  predicate Valid(g: Game) {
    && |g.players| == MaxPlayers
    && g.current < |g.players|
    && (g.winner.Some? ==> g.winner.value < |g.players|)
  }

  /** Seat by seat, no player lost a name or had a status flag cleared. */
  predicate FlagsKept(ps: seq<Player>, qs: seq<Player>) {
    |ps| == |qs| && forall i :: 0 <= i < |ps| ==> Keeps(ps[i], qs[i])
  }

  /** No seat's finished flag changes between `ps` and `qs`. */
  predicate FinishKept(ps: seq<Player>, qs: seq<Player>) {
    |ps| == |qs| && forall i :: 0 <= i < |ps| ==> qs[i].hasFinished == ps[i].hasFinished
  }

  lemma FinishKeptTransitive(a: seq<Player>, b: seq<Player>, c: seq<Player>)
    requires FinishKept(a, b) && FinishKept(b, c)
    ensures FinishKept(a, c)
  {
  }

  lemma FlagsKeptTransitive(a: seq<Player>, b: seq<Player>, c: seq<Player>)
    requires FlagsKept(a, b) && FlagsKept(b, c)
    ensures FlagsKept(a, c)
  {
    assert forall i :: 0 <= i < |a| ==> Keeps(a[i], b[i]) && Keeps(b[i], c[i]);
  }

  /** Setup refuses a table of the wrong size, naming the size it needs. */
  datatype SetupError = WrongPlayerCount(required: nat)

  /** `PeakGame(player_names)`, given the already shuffled deck: exactly
      four names are accepted. */
  function NewGame(names: seq<string>, deck: Deck): (r: Result<Game, SetupError>)
    ensures r.Err? <==> |names| != MaxPlayers
    ensures r.Err? ==> r.error == WrongPlayerCount(MaxPlayers)
    ensures r.Ok? ==> Valid(r.value)
    ensures r.Ok? ==>
              && r.value.current == 0 && !r.value.gameOver && r.value.winner.None?
              && !r.value.highCard && r.value.round == 1
              && r.value.discard == [] && r.value.deck == deck
    ensures r.Ok? ==> forall i :: 0 <= i < |names| ==> r.value.players[i] == NewPlayer(names[i])
  {
    if |names| != MaxPlayers then Err(WrongPlayerCount(MaxPlayers))
    else
      var ps := seq(|names|, i requires 0 <= i < |names| => NewPlayer(names[i]));
      Ok(Game(ps, deck, [], 0, false, None, false, 1))
  }

  /** Players and deck after dealing. */
  datatype Dealing = Dealing(players: seq<Player>, deck: Deck)

  /** How many cards the seat at position `i` receives at setup from a deck
      of `size` cards: seven each while they last. */
  function SetupShare(size: int, i: nat): int {
    Min(StartingHandSize, Max(size - StartingHandSize * i, 0))
  }

  /** The run of the deck, bottom to top, that the seat at position `i`
      receives at setup: the (up to) seven cards just below the `7 * i`
      already dealt off the top. */
  function SetupCards(cards: seq<Card>, i: nat): (s: seq<Card>)
    ensures |s| == SetupShare(|cards|, i)
  {
    cards[Max(|cards| - StartingHandSize * (i + 1), 0)..Max(|cards| - StartingHandSize * i, 0)]
  }

  /** Once the first seat has taken its run off the top, every later seat's
      run from the rest is its run from the full deck. */
  lemma SetupCardsShift(cards: seq<Card>, i: nat)
    requires i >= 1
    ensures SetupCards(cards[..|cards| - Min(StartingHandSize, |cards|)], i - 1) == SetupCards(cards, i)
  {
  }

  /** Seat `q` is seat `p` after `add_cards` of `run` popped off the top of
      the deck: the run's cards in pop order, topmost first. */
  predicate DealtTo(p: Player, q: Player, run: seq<Card>) {
    q == AddCards(p, Reverse(run))
  }

  /** The dealing loop of `setup_game`: each player in seat order gets up
      to `StartingHandSize` cards off the top of the deck. */
  function DealHands(ps: seq<Player>, d: Deck): (r: Dealing)
    decreases |ps|
    ensures |r.players| == |ps|
    ensures |r.deck.cards| == Max(|d.cards| - StartingHandSize * |ps|, 0)
    ensures forall i :: 0 <= i < |ps| ==> DealtTo(ps[i], r.players[i], SetupCards(d.cards, i))
  {
    if ps == [] then Dealing([], d)
    else
      var dealt := DealCards(d, StartingHandSize);
      var rest := DealHands(ps[1..], dealt.rest);
      var r := Dealing([AddCards(ps[0], dealt.cards)] + rest.players, rest.deck);
      DealHandsStep(ps, d, rest.players);
      r
  }

  /** The first seat's run is the top of the deck, as `DealCards` pops it. */
  lemma SetupCardsFirst(d: Deck)
    ensures SetupCards(d.cards, 0) == Reverse(DealCards(d, StartingHandSize).cards)
  {
    var dealt := DealCards(d, StartingHandSize);
    SetupCardsTop(d.cards);
    SuffixOfConcat(dealt.rest.cards, Reverse(dealt.cards));
  }

  /** The first seat's run is the top seven cards, or the whole deck. */
  lemma SetupCardsTop(cards: seq<Card>)
    ensures SetupCards(cards, 0) == cards[|cards| - Min(StartingHandSize, |cards|)..]
  {
  }

  lemma SuffixOfConcat<T>(a: seq<T>, b: seq<T>)
    ensures (a + b)[|a|..] == b
  {
  }

  /** After the top run is dealt, the rest of the deck gives seat `i - 1`
      what the full deck gives seat `i`. */
  lemma SetupCardsAfterDeal(d: Deck, i: nat)
    requires i >= 1
    ensures SetupCards(DealCards(d, StartingHandSize).rest.cards, i - 1) == SetupCards(d.cards, i)
  {
    DealCardsLeavesBottom(d, StartingHandSize);
    SetupCardsShift(d.cards, i);
  }

  /** The first seat takes the top run; the later seats' runs carry over
      from the rest of the deck. */
  lemma DealHandsStep(ps: seq<Player>, d: Deck, later: seq<Player>)
    requires ps != [] && |later| == |ps| - 1
    requires var rest := DealCards(d, StartingHandSize).rest;
             forall i :: 0 <= i < |later| ==> DealtTo(ps[1..][i], later[i], SetupCards(rest.cards, i))
    ensures var qs := [AddCards(ps[0], DealCards(d, StartingHandSize).cards)] + later;
            forall i :: 0 <= i < |ps| ==> DealtTo(ps[i], qs[i], SetupCards(d.cards, i))
  {
    var dealt := DealCards(d, StartingHandSize);
    var first := AddCards(ps[0], dealt.cards);
    var qs := [first] + later;
    SetupCardsFirst(d);
    ReverseReverse(dealt.cards);
    assert DealtTo(ps[0], qs[0], SetupCards(d.cards, 0));
    assert qs[1..] == later;
    forall i | 1 <= i < |ps|
      ensures DealtTo(ps[i], qs[i], SetupCards(d.cards, i))
    {
      assert ps[i] == ps[1..][i - 1];
      assert qs[i] == qs[1..][i - 1];
      SetupCardsAfterDeal(d, i);
    }
  }

  /** Dealing the hands leaves the untouched bottom of the deck. */
  lemma {:induction false} DealHandsLeavesBottom(ps: seq<Player>, d: Deck)
    decreases |ps|
    ensures DealHands(ps, d).deck.cards == d.cards[..Max(|d.cards| - StartingHandSize * |ps|, 0)]
  {
    if ps != [] {
      var dealt := DealCards(d, StartingHandSize);
      DealCardsLeavesBottom(d, StartingHandSize);
      DealHandsLeavesBottom(ps[1..], dealt.rest);
      var rest := DealHands(ps[1..], dealt.rest);
      assert DealHands(ps, d).deck == rest.deck;
      PrefixOfPrefix(d.cards, |d.cards| - |dealt.cards|, |rest.deck.cards|);
    }
  }

  lemma PrefixOfPrefix(s: seq<Card>, a: nat, b: nat)
    requires b <= a <= |s|
    ensures s[..a][..b] == s[..b]
  {
  }

  /** `setup_game`. */
  function SetupGame(g: Game): (r: Game)
    requires Valid(g)
    ensures Valid(r)
    ensures FlagsKept(g.players, r.players)
    ensures r.discard == g.discard && r.current == g.current && r.round == g.round
  {
    var dealt := DealHands(g.players, g.deck);
    DealHandsKeepFlags(g.players, g.deck);
    g.(players := dealt.players, deck := dealt.deck)
  }

  lemma DealHandsKeepFlags(ps: seq<Player>, d: Deck)
    ensures FlagsKept(ps, DealHands(ps, d).players)
  {
    var r := DealHands(ps, d);
    assert forall i :: 0 <= i < |ps| ==> Keeps(ps[i], r.players[i]);
  }

  /** Setup deals each seat, in seat order, its run of the deck popped off
      the top, and leaves the untouched bottom of the deck. */
  lemma SetupDeals(g: Game)
    requires Valid(g)
    ensures var r := SetupGame(g);
            && (forall i :: 0 <= i < |g.players| ==>
                  DealtTo(g.players[i], r.players[i], SetupCards(g.deck.cards, i)))
            && r.deck.cards == g.deck.cards[..Max(|g.deck.cards| - StartingHandSize * |g.players|, 0)]
  {
    DealHandsLeavesBottom(g.players, g.deck);
  }

  /** `get_last_played_card`: the top of the discard pile. */
  function LastPlayed(g: Game): (r: Option<Card>)
    ensures r.None? <==> g.discard == []
    ensures r.Some? ==> r.value == g.discard[|g.discard| - 1]
  {
    if g.discard == [] then None else Some(g.discard[|g.discard| - 1])
  }

  /** The seat `o + 1` places after `from`, going round the table. */
  function SeatAfter(n: nat, from: nat, o: nat): nat
    requires n > 0
  {
    (from + 1 + o) % n
  }

  /** How many seats lie strictly between `from` and `to`, going forward. */
  function Distance(n: nat, from: nat, to: nat): nat
    requires n > 0
  {
    (to - from - 1) % n
  }

  lemma ModBelow(x: int, n: int)
    requires 0 <= x < n
    ensures x % n == x
  {
  }

  lemma ModAbove(x: int, n: int)
    requires 0 < n <= x < 2 * n
    ensures x % n == x - n
  {
  }

  lemma ModNegative(x: int, n: int)
    requires 0 < n && -n <= x < 0
    ensures x % n == x + n
  {
    ModBelow(x + n, n);
  }

  lemma SeatDistance(n: nat, from: nat, to: nat)
    requires 0 < n && from < n && to < n
    ensures Distance(n, from, to) < n
    ensures SeatAfter(n, from, Distance(n, from, to)) == to
  {
    if to > from {
      ModBelow(to - from - 1, n);
      ModBelow(to, n);
    } else {
      ModNegative(to - from - 1, n);
      ModAbove(to + n, n);
    }
  }

  lemma DistanceSeat(n: nat, from: nat, o: nat)
    requires 0 < n && from < n && o < n
    ensures Distance(n, from, SeatAfter(n, from, o)) == o
  {
    if from + 1 + o < n {
      ModBelow(from + 1 + o, n);
      ModBelow(o, n);
    } else {
      ModAbove(from + 1 + o, n);
      ModNegative(o - n, n);
    }
  }

  /** The first offset `o >= k` whose seat after `from` holds an active
      player: the scanning loop shared by `_get_next_active_player` and
      `_next_player`. */
  function ScanActive(ps: seq<Player>, from: nat, k: nat): (r: Option<nat>)
    requires 0 < |ps| && k <= |ps|
    decreases |ps| - k
    ensures r.Some? ==> k <= r.value < |ps| && ps[SeatAfter(|ps|, from, r.value)].IsActive()
    ensures r.Some? ==> forall o :: k <= o < r.value ==> !ps[SeatAfter(|ps|, from, o)].IsActive()
    ensures r.None? ==> forall o :: k <= o < |ps| ==> !ps[SeatAfter(|ps|, from, o)].IsActive()
  {
    if k == |ps| then None
    else if ps[SeatAfter(|ps|, from, k)].IsActive() then Some(k)
    else ScanActive(ps, from, k + 1)
  }

  /** A full scan finds an active player exactly when one exists. */
  lemma ScanFindsAnyActive(ps: seq<Player>, from: nat)
    requires 0 < |ps| && from < |ps|
    ensures ScanActive(ps, from, 0).None? <==> ActiveCount(ps) == 0
  {
    if ScanActive(ps, from, 0).None? {
      forall t | 0 <= t < |ps|
        ensures !ps[t].IsActive()
      {
        SeatDistance(|ps|, from, t);
      }
    }
  }

  /** `_get_next_active_player`: the first active player after the current
      one, wrapping round, possibly the current player itself. */
  function NextActivePlayer(g: Game): (r: Option<nat>)
    requires Valid(g)
    ensures r.None? <==> ActiveCount(g.players) == 0
    ensures r.Some? ==> r.value < |g.players| && g.players[r.value].IsActive()
    ensures r.Some? ==> forall o :: 0 <= o < Distance(|g.players|, g.current, r.value) ==>
              !g.players[SeatAfter(|g.players|, g.current, o)].IsActive()
  {
    ScanFindsAnyActive(g.players, g.current);
    match ScanActive(g.players, g.current, 0)
    case None => None
    case Some(o) =>
      DistanceSeat(|g.players|, g.current, o);
      Some(SeatAfter(|g.players|, g.current, o))
  }

  /** `_check_game_over`: the game ends as soon as at most one player is
      active or somebody has finished; a winner is recorded when the rules
      name one. */
  function CheckGameOver(g: Game): (r: Game)
    requires Valid(g)
    ensures Valid(r)
    ensures r.players == g.players && r.deck == g.deck && r.discard == g.discard
    ensures r.current == g.current && r.round == g.round && r.highCard == g.highCard
    ensures r.gameOver <==>
              g.gameOver || ActiveCount(g.players) <= 1
              || exists j :: 0 <= j < |g.players| && g.players[j].hasFinished
    ensures GetWinner(g.players).Some? ==> r.winner == GetWinner(g.players)
    ensures GetWinner(g.players).None? ==> r.winner == g.winner
  {
    var w := GetWinner(g.players);
    var g1 := if w.Some? then g.(gameOver := true, winner := w) else g;
    if ActiveCount(g.players) == 0 then g1.(gameOver := true) else g1
  }

  /** What passing the turn on from seat `from` (in round `round`, with the
      high-card flag at `flag`, the game-over flag at `over` and the winner
      `w`) leaves in `r`: the turn rests on the first active seat after
      `from`, possibly `from` itself; the round grows by one exactly when the
      turn wraps round to `from` or before it, and the flag survives only
      within the same round; the game's end and winner are untouched. With
      nobody active the turn stays put and the game is over, with no winner
      named. */
  predicate TurnPassed(from: nat, round: nat, flag: bool, over: bool, w: Option<nat>, r: Game)
    requires Valid(r) && from < |r.players|
  {
    && (r.highCard <==> flag && r.round == round)
    && r.winner == w
    && (ActiveCount(r.players) > 0 ==> r.gameOver == over)
    && (ActiveCount(r.players) > 0 ==>
          && r.players[r.current].IsActive()
          && (forall o :: 0 <= o < Distance(|r.players|, from, r.current) ==>
                !r.players[SeatAfter(|r.players|, from, o)].IsActive())
          && (r.round == round + 1 <==> r.current <= from)
          && (r.round == round || r.round == round + 1))
    && (ActiveCount(r.players) == 0 ==> r.current == from && r.round == round && r.gameOver)
  }

  /** `_next_player`: step the turn index forward, one seat at a time,
      until it rests on an active player. Landing on or before the seat it
      started from starts a new round, which clears the high-card flag. If
      nobody is active the turn index comes back to where it was and the game
      is checked for its end. */
  function Advance(g: Game): (r: Game)
    requires Valid(g)
    ensures Valid(r)
    ensures r.players == g.players && r.deck == g.deck && r.discard == g.discard
    ensures ActiveCount(g.players) > 0 ==> r.players[r.current].IsActive()
    ensures ActiveCount(g.players) > 0 ==>
              forall o :: 0 <= o < Distance(|g.players|, g.current, r.current) ==>
                !g.players[SeatAfter(|g.players|, g.current, o)].IsActive()
    ensures ActiveCount(g.players) > 0 ==>
              (r.round == g.round + 1 <==> r.current <= g.current)
              && (r.round == g.round || r.round == g.round + 1)
              && r.gameOver == g.gameOver && r.winner == g.winner
    ensures r.highCard <==> g.highCard && r.round == g.round
    ensures ActiveCount(g.players) == 0 ==>
              r.current == g.current && r.round == g.round && r.gameOver && r.winner == g.winner
  {
    ScanFindsAnyActive(g.players, g.current);
    match ScanActive(g.players, g.current, 0)
    case None => CheckGameOver(g)
    case Some(o) =>
      var next := SeatAfter(|g.players|, g.current, o);
      DistanceSeat(|g.players|, g.current, o);
      if next <= g.current then g.(current := next, round := g.round + 1, highCard := false)
      else g.(current := next)
  }

  lemma AdvancePassesTurn(g: Game)
    requires Valid(g)
    ensures TurnPassed(g.current, g.round, g.highCard, g.gameOver, g.winner, Advance(g))
  {
  }

  /** First stage of a successful play: the card leaves the current hand
      (its first copy), lands on the discard pile, and a high card raises
      the round's flag. */
  function PutDown(g: Game, card: Card): (r: Game)
    requires Valid(g) && card in g.players[g.current].hand
    ensures Valid(r)
    ensures r.players[g.current] == RemoveCard(g.players[g.current], card).player
    ensures forall i :: 0 <= i < |g.players| && i != g.current ==> r.players[i] == g.players[i]
    ensures FlagsKept(g.players, r.players) && FinishKept(g.players, r.players)
    ensures r.discard == g.discard + [card] && r.deck == g.deck
    ensures r.highCard <==> g.highCard || IsHighValueCard(card)
    ensures r.current == g.current && r.round == g.round
    ensures r.gameOver == g.gameOver && r.winner == g.winner
  {
    var p := RemoveCard(g.players[g.current], card).player;
    g.(players := g.players[g.current := p],
       discard := g.discard + [card],
       highCard := if IsHighValueCard(card) then true else g.highCard)
  }

  /** Only seat `t` may differ between `ps` and `qs`. */
  predicate OthersUnchanged(ps: seq<Player>, qs: seq<Player>, t: nat) {
    |ps| == |qs| && forall i :: 0 <= i < |ps| && i != t ==> qs[i] == ps[i]
  }

  /** Picking up a batch of cards (`add_cards`, then the disqualification
      check): the cards go to the end of the hand and the player is
      disqualified if the hand now exceeds `MaxHand`. */
  function PickUp(p: Player, cards: seq<Card>): (q: Player)
    ensures q.hand == p.hand + cards
    ensures q.isDisqualified <==> p.isDisqualified || |q.hand| > MaxHand
    ensures q.hasFinished == p.hasFinished
    ensures Keeps(p, q)
  {
    var a := AddCards(p, cards);
    if ShouldDisqualify(a) then Disqualify(a) else a
  }

  /** `_handle_peak_card`: the next active player picks up the top
      `PeakPenalty` cards (fewer if the deck runs out) and is disqualified
      if that leaves more than `MaxHand` cards. */
  function HandlePeak(g: Game): (r: Game)
    requires Valid(g)
    ensures Valid(r)
    ensures NextActivePlayer(g).None? ==> r == g
    ensures NextActivePlayer(g).Some? ==>
              var t := NextActivePlayer(g).value;
              && r.players[t] == PickUp(g.players[t], DealCards(g.deck, PeakPenalty).cards)
              && r.deck == DealCards(g.deck, PeakPenalty).rest
              && OthersUnchanged(g.players, r.players, t)
    ensures FlagsKept(g.players, r.players) && FinishKept(g.players, r.players)
    ensures r.discard == g.discard && r.current == g.current && r.round == g.round
    ensures r.highCard == g.highCard && r.gameOver == g.gameOver && r.winner == g.winner
  {
    match NextActivePlayer(g)
    case None => g
    case Some(t) => PeakHits(g, t)
  }

  /** Seat `t` picks up the Peak penalty off the top of the deck. */
  function PeakHits(g: Game, t: nat): (r: Game)
    requires Valid(g) && t < |g.players|
    ensures Valid(r)
    ensures r.players[t] == PickUp(g.players[t], DealCards(g.deck, PeakPenalty).cards)
    ensures r.deck == DealCards(g.deck, PeakPenalty).rest
    ensures OthersUnchanged(g.players, r.players, t)
    ensures FlagsKept(g.players, r.players) && FinishKept(g.players, r.players)
    ensures r.discard == g.discard && r.current == g.current && r.round == g.round
    ensures r.highCard == g.highCard && r.gameOver == g.gameOver && r.winner == g.winner
  {
    var dealt := DealCards(g.deck, PeakPenalty);
    var q := PickUp(g.players[t], dealt.cards);
    var ps := g.players[t := q];
    assert forall i :: 0 <= i < |ps| ==> Keeps(g.players[i], ps[i]);
    assert forall i :: 0 <= i < |ps| ==> ps[i].hasFinished == g.players[i].hasFinished;
    g.(players := ps, deck := dealt.rest)
  }

  /** The Peak penalty comes off the top of the deck: the victim keeps
      their hand and gains `PeakPenalty` cards (or what is left of the
      deck), which reversed are exactly the deck's top; the deck keeps its
      untouched bottom. */
  lemma PeakPenaltyFromTop(g: Game)
    requires Valid(g) && NextActivePlayer(g).Some?
    ensures var t, r := NextActivePlayer(g).value, HandlePeak(g);
            var n, k := |g.deck.cards|, Min(PeakPenalty, |g.deck.cards|);
            && |r.players[t].hand| == |g.players[t].hand| + k
            && r.players[t].hand[..|g.players[t].hand|] == g.players[t].hand
            && Reverse(r.players[t].hand[|g.players[t].hand|..]) == g.deck.cards[n - k..]
            && r.deck.cards == g.deck.cards[..n - k]
  {
    var t, r := NextActivePlayer(g).value, HandlePeak(g);
    var dealt := DealCards(g.deck, PeakPenalty);
    var h, h' := g.players[t].hand, r.players[t].hand;
    var n, k := |g.deck.cards|, Min(PeakPenalty, |g.deck.cards|);
    assert |dealt.cards| == k;
    DealCardsLeavesBottom(g.deck, PeakPenalty);
    assert h' == h + dealt.cards;
    assert h'[..|h|] == h && h'[|h|..] == dealt.cards;
    assert g.deck.cards == g.deck.cards[..n - k] + Reverse(dealt.cards);
  }

  /** The state after a play's card has left the hand and its effect (if a
      Peak) has been applied, before the finish check. */
  function AfterEffects(g: Game, card: Card): (r: Game)
    requires Valid(g) && card in g.players[g.current].hand
    ensures Valid(r)
    ensures r.discard == g.discard + [card]
    ensures r.current == g.current && r.round == g.round
    ensures r.highCard <==> g.highCard || IsHighValueCard(card)
    ensures !card.IsPeakCard() ==> r == PutDown(g, card)
    ensures card.IsPeakCard() ==> r == HandlePeak(PutDown(g, card))
    ensures FlagsKept(g.players, r.players) && FinishKept(g.players, r.players)
    ensures r.gameOver == g.gameOver && r.winner == g.winner
  {
    var g1 := PutDown(g, card);
    if card.IsPeakCard() then
      var g2 := HandlePeak(g1);
      FlagsKeptTransitive(g.players, g1.players, g2.players);
      FinishKeptTransitive(g.players, g1.players, g2.players);
      g2
    else g1
  }

  /** The penalty of `play_card` for emptying the hand on a card that may
      not finish: one card off the deck, if there is one. */
  function Penalty(g: Game): (r: Game)
    requires Valid(g)
    ensures Valid(r)
    ensures |g.deck.cards| == 0 ==> r == g
    ensures |g.deck.cards| > 0 ==>
              && r.players[g.current] == AddCard(g.players[g.current], g.deck.cards[|g.deck.cards| - 1])
              && r.deck.cards == g.deck.cards[..|g.deck.cards| - 1]
    ensures forall i :: 0 <= i < |g.players| && i != g.current ==> r.players[i] == g.players[i]
    ensures FlagsKept(g.players, r.players)
    ensures r.discard == g.discard && r.current == g.current && r.round == g.round
    ensures r.highCard == g.highCard && r.gameOver == g.gameOver && r.winner == g.winner
  {
    var one := DealCard(g.deck);
    match one.card
    case None => g
    case Some(c) =>
      g.(players := g.players[g.current := AddCard(g.players[g.current], c)], deck := one.rest)
  }

  /** The outcome of an action: whether it was accepted, and the game after it. */
  datatype Step = Step(ok: bool, game: Game)

  /** The rest of `play_card` once the card is down: a hand emptied on a
      card that may finish finishes the player and checks for the end of
      the game without moving the turn; a hand emptied on any other card
      draws the penalty card and passes the turn; otherwise the turn
      passes. */
  function Conclude(g: Game, card: Card): (r: Game)
    requires Valid(g)
    ensures Valid(r)
    ensures r.discard == g.discard
    ensures FlagsKept(g.players, r.players)
    ensures g.players[g.current].hand != [] ==>
              && r.players == g.players && r.deck == g.deck
              && TurnPassed(g.current, g.round, g.highCard, g.gameOver, g.winner, r)
    ensures g.players[g.current].hand == [] && !CanFinishOnCard(card, g.highCard) ==>
              && r.players == Penalty(g).players && r.deck == Penalty(g).deck
              && TurnPassed(g.current, g.round, g.highCard, g.gameOver, g.winner, r)
    ensures g.players[g.current].hand == [] && CanFinishOnCard(card, g.highCard) ==>
              && r.players == g.players[g.current := FinishGame(g.players[g.current])]
              && r.deck == g.deck && r.current == g.current && r.round == g.round
              && r.highCard == g.highCard && r.gameOver
  {
    var p := g.players[g.current];
    if |p.hand| == 0 then
      if CanFinishOnCard(card, g.highCard) then
        var ps := g.players[g.current := FinishGame(p)];
        assert forall i :: 0 <= i < |ps| ==> Keeps(g.players[i], ps[i]);
        assert ps[g.current].hasFinished;
        CheckGameOver(g.(players := ps))
      else
        var g1 := Penalty(g);
        AdvancePassesTurn(g1);
        Advance(g1)
    else
      AdvancePassesTurn(g);
      Advance(g)
  }

  /** `play_card`, played by seat `who`. */
  function PlayCard(g: Game, who: nat, card: Card): (r: Step)
    requires Valid(g)
    ensures r.ok <==> who == g.current && card in g.players[who].hand && CanPlayCard(card, LastPlayed(g))
    ensures !r.ok ==> r.game == g
    ensures Valid(r.game)
    ensures r.ok ==> r.game.discard == g.discard + [card] && LastPlayed(r.game) == Some(card)
    ensures FlagsKept(g.players, r.game.players)
    ensures r.ok && AfterEffects(g, card).players[g.current].hand != [] ==>
              r.game.players == AfterEffects(g, card).players && r.game.deck == AfterEffects(g, card).deck
    ensures r.ok && AfterEffects(g, card).players[g.current].hand == [] && !CanFinishOn(card) ==>
              r.game.players == Penalty(AfterEffects(g, card)).players
              && r.game.deck == Penalty(AfterEffects(g, card)).deck
    ensures r.ok && AfterEffects(g, card).players[g.current].hand == [] && CanFinishOn(card) ==>
              var a := AfterEffects(g, card);
              && r.game.players == a.players[g.current := FinishGame(a.players[g.current])]
              && r.game.deck == a.deck && r.game.current == g.current && r.game.round == g.round
    ensures r.ok && (AfterEffects(g, card).players[g.current].hand != [] || !CanFinishOn(card)) ==>
              TurnPassed(g.current, g.round, g.highCard || IsHighValueCard(card), g.gameOver, g.winner, r.game)
  {
    if who != g.current || card !in g.players[who].hand || !CanPlayCard(card, LastPlayed(g)) then
      Step(false, g)
    else
      var g2 := AfterEffects(g, card);
      var g3 := Conclude(g2, card);
      FlagsKeptTransitive(g.players, g2.players, g3.players);
      FinishTableRefinesCardRule(card, g2.highCard);
      Step(true, g3)
  }

  /** The drawn card `c` joins the hand of seat `who`, who is disqualified
      if that leaves more than `MaxHand` cards; nothing else changes. */
  function Receive(g: Game, who: nat, c: Card): (r: Game)
    requires Valid(g) && who < |g.players|
    ensures Valid(r) && r == g.(players := r.players)
    ensures r.players[who].hand == g.players[who].hand + [c]
    ensures r.players[who].isDisqualified <==> g.players[who].isDisqualified || |r.players[who].hand| > MaxHand
    ensures r.players[who].hasFinished == g.players[who].hasFinished && r.players[who].name == g.players[who].name
    ensures OthersUnchanged(g.players, r.players, who)
    ensures FlagsKept(g.players, r.players)
  {
    var p := AddCard(g.players[who], c);
    var q := if ShouldDisqualify(p) then Disqualify(p) else p;
    var ps := g.players[who := q];
    assert forall i :: 0 <= i < |ps| ==> Keeps(g.players[i], ps[i]);
    g.(players := ps)
  }

  /** `draw_card`, asked for by seat `who`. */
  function DrawCard(g: Game, who: nat): (r: Step)
    requires Valid(g)
    ensures r.ok <==> who == g.current && |g.deck.cards| > 0
    ensures !r.ok ==> r.game == g
    ensures Valid(r.game)
    ensures r.ok ==>
              && r.game.players[who].hand == g.players[who].hand + [g.deck.cards[|g.deck.cards| - 1]]
              && r.game.deck.cards == g.deck.cards[..|g.deck.cards| - 1]
              && (r.game.players[who].isDisqualified <==>
                    g.players[who].isDisqualified || |r.game.players[who].hand| > MaxHand)
              && (forall i :: 0 <= i < |g.players| && i != who ==> r.game.players[i] == g.players[i])
              && r.game.discard == g.discard
    ensures r.ok ==> TurnPassed(who, g.round, g.highCard, g.gameOver, g.winner, r.game)
    ensures r.ok ==> r.game.players[who].hasFinished == g.players[who].hasFinished
    ensures FlagsKept(g.players, r.game.players)
  {
    if who != g.current then Step(false, g)
    else
      var one := DealCard(g.deck);
      match one.card
      case None => Step(false, g)
      case Some(c) =>
        var g1 := Receive(g, who, c).(deck := one.rest);
        AdvancePassesTurn(g1);
        Step(true, Advance(g1))
  }

  /** The cards of `s` that may follow `last`, in hand order. */
  function PlayableCards(s: seq<Card>, last: Option<Card>): (r: seq<Card>)
    ensures |r| <= |s|
    ensures forall c :: c in r <==> c in s && CanPlayCard(c, last)
    ensures forall c :: multiset(r)[c] == if CanPlayCard(c, last) then multiset(s)[c] else 0
  {
    if s == [] then []
    else
      assert s == [s[0]] + s[1..];
      if CanPlayCard(s[0], last) then [s[0]] + PlayableCards(s[1..], last)
      else PlayableCards(s[1..], last)
  }

  /** Selecting the playable cards keeps hand order: selecting from a
      concatenation concatenates the selections. */
  lemma {:induction false} PlayableCardsKeepOrder(a: seq<Card>, b: seq<Card>, last: Option<Card>)
    ensures PlayableCards(a + b, last) == PlayableCards(a, last) + PlayableCards(b, last)
  {
    if a == [] {
      assert a + b == b;
    } else {
      var ab := a + b;
      assert ab[0] == a[0] && ab[1..] == a[1..] + b;
      PlayableCardsKeepOrder(a[1..], b, last);
      if CanPlayCard(a[0], last) {
        assert PlayableCards(ab, last) == [a[0]] + PlayableCards(a[1..] + b, last);
        assert PlayableCards(a, last) == [a[0]] + PlayableCards(a[1..], last);
        SeqAssoc([a[0]], PlayableCards(a[1..], last), PlayableCards(b, last));
      } else {
        assert PlayableCards(ab, last) == PlayableCards(a[1..] + b, last);
        assert PlayableCards(a, last) == PlayableCards(a[1..], last);
      }
    }
  }

  /** A player's choices on a turn: the cards they may play, and whether
      they may draw. */
  datatype Options = Options(playable: seq<Card>, canDraw: bool)

  /** `get_player_options`. */
  function PlayerOptions(g: Game, who: nat): (r: Options)
    requires Valid(g)
    ensures who != g.current || !g.players[who].IsActive() ==> r == Options([], false)
    ensures r.canDraw <==> who == g.current && g.players[who].IsActive() && |g.deck.cards| > 0
    ensures forall c :: c in r.playable <==>
              who == g.current && g.players[who].IsActive()
              && c in g.players[who].hand && CanPlayCard(c, LastPlayed(g))
    ensures forall c :: multiset(r.playable)[c] ==
              if who == g.current && g.players[who].IsActive() && CanPlayCard(c, LastPlayed(g))
              then multiset(g.players[who].hand)[c] else 0
  {
    if who != g.current || !g.players[who].IsActive() then Options([], false)
    else Options(PlayableCards(g.players[who].hand, LastPlayed(g)), !IsEmpty(g.deck))
  }
}

=== FILE: invariants.dfy ===
/** Card conservation and the state invariants of the turn engine: every
    action only moves cards between the deck, the hands and the discard
    pile, keeps the game's shape, and never clears a status flag. */
module GameInvariants {
  import opened Wrappers
  import opened Cards
  import opened Players
  import opened Rules
  import opened PeakGame

  /** All cards held in hands. */
  function Hands(ps: seq<Player>): multiset<Card> {
    if ps == [] then multiset{} else multiset(ps[0].hand) + Hands(ps[1..])
  }

  /** Total number of cards held in hands. */
  function HandSizes(ps: seq<Player>): nat {
    if ps == [] then 0 else |ps[0].hand| + HandSizes(ps[1..])
  }

  /** Every card in the game, wherever it lies. */
  function Inventory(g: Game): multiset<Card> {
    multiset(g.deck.cards) + Hands(g.players) + multiset(g.discard)
  }

  /** `|deck| + sum of hand sizes + |discard|`. */
  function CardCount(g: Game): nat {
    |g.deck.cards| + HandSizes(g.players) + |g.discard|
  }

  lemma {:induction false} HandsSize(ps: seq<Player>)
    ensures |Hands(ps)| == HandSizes(ps)
  {
    if ps != [] {
      HandsSize(ps[1..]);
    }
  }

  /** Counting the inventory counts the cards on every pile. */
  lemma CountIsInventorySize(g: Game)
    ensures |Inventory(g)| == CardCount(g)
  {
    HandsSize(g.players);
  }

  /** A seat's hand that gained `more` adds `more` to the hands' total. */
  lemma {:induction false} HandsGrow(ps: seq<Player>, i: nat, p: Player, more: multiset<Card>)
    requires i < |ps|
    requires multiset(p.hand) == multiset(ps[i].hand) + more
    ensures Hands(ps[i := p]) == Hands(ps) + more
  {
    if i == 0 {
      assert ps[i := p][1..] == ps[1..];
    } else {
      HandsGrow(ps[1..], i - 1, p, more);
      assert ps[i := p][1..] == ps[1..][i - 1 := p];
    }
  }

  /** A seat's hand that lost `less` takes `less` out of the hands' total. */
  lemma {:induction false} HandsShrink(ps: seq<Player>, i: nat, p: Player, less: multiset<Card>)
    requires i < |ps|
    requires multiset(p.hand) + less == multiset(ps[i].hand)
    ensures Hands(ps[i := p]) + less == Hands(ps)
  {
    if i == 0 {
      assert ps[i := p][1..] == ps[1..];
    } else {
      HandsShrink(ps[1..], i - 1, p, less);
      assert ps[i := p][1..] == ps[1..][i - 1 := p];
    }
  }

  /** Replacing a seat's player but not the hand leaves the total alone. */
  lemma {:induction false} HandsSame(ps: seq<Player>, i: nat, p: Player)
    requires i < |ps|
    requires p.hand == ps[i].hand
    ensures Hands(ps[i := p]) == Hands(ps)
  {
    if i == 0 {
      assert ps[i := p][1..] == ps[1..];
    } else {
      HandsSame(ps[1..], i - 1, p);
      assert ps[i := p][1..] == ps[1..][i - 1 := p];
    }
  }

  /** Cards leaving the deck for the hands leave the total unchanged. */
  lemma DeckToHands(d1: multiset<Card>, h1: multiset<Card>, d2: multiset<Card>, h2: multiset<Card>,
                    x: multiset<Card>, m: multiset<Card>)
    requires d2 + m == d1
    requires h2 == h1 + m
    ensures d2 + h2 + x == d1 + h1 + x
  {
  }

  /** A card leaving a hand for the discard pile leaves the total unchanged. */
  lemma HandToDiscard(d: multiset<Card>, h1: multiset<Card>, x1: multiset<Card>,
                      h2: multiset<Card>, x2: multiset<Card>, m: multiset<Card>)
    requires h2 + m == h1
    requires x2 == x1 + m
    ensures d + h2 + x2 == d + h1 + x1
  {
  }

  lemma {:induction false} HandsOfEmptyHands(ps: seq<Player>)
    requires forall i :: 0 <= i < |ps| ==> ps[i].hand == []
    ensures Hands(ps) == multiset{}
  {
    if ps != [] {
      HandsOfEmptyHands(ps[1..]);
    }
  }

  /** A new game holds exactly the deck it was given. */
  lemma NewGameHoldsDeck(names: seq<string>, deck: Deck)
    requires |names| == MaxPlayers
    ensures Inventory(NewGame(names, deck).value) == multiset(deck.cards)
  {
    HandsOfEmptyHands(NewGame(names, deck).value.players);
  }

  /** Regrouping the totals of one dealing step. */
  lemma DealStepAlgebra(h0: multiset<Card>, hs: multiset<Card>, dealt: multiset<Card>,
                        rest: multiset<Card>, d: multiset<Card>,
                        hs2: multiset<Card>, d2: multiset<Card>)
    requires rest + dealt == d
    requires hs2 + d2 == hs + rest
    ensures (h0 + dealt) + hs2 + d2 == (h0 + hs) + d
  {
    forall c
      ensures ((h0 + dealt) + hs2 + d2)[c] == ((h0 + hs) + d)[c]
    {
      assert (rest + dealt)[c] == d[c];
      assert (hs2 + d2)[c] == (hs + rest)[c];
    }
  }

  /** Hands and deck swapping cards leave the total unchanged. */
  lemma HandsDeckSwap(d1: multiset<Card>, h1: multiset<Card>, d2: multiset<Card>, h2: multiset<Card>,
                      x: multiset<Card>)
    requires h2 + d2 == h1 + d1
    ensures d2 + h2 + x == d1 + h1 + x
  {
    forall c
      ensures (d2 + h2 + x)[c] == (d1 + h1 + x)[c]
    {
      assert (h2 + d2)[c] == (h1 + d1)[c];
    }
  }

  lemma {:induction false} DealHandsConserves(ps: seq<Player>, d: Deck)
    decreases |ps|
    ensures Hands(DealHands(ps, d).players) + multiset(DealHands(ps, d).deck.cards)
            == Hands(ps) + multiset(d.cards)
  {
    if ps != [] {
      var dealt := DealCards(d, StartingHandSize);
      var rest := DealHands(ps[1..], dealt.rest);
      var p := AddCards(ps[0], dealt.cards);
      var r := DealHands(ps, d);
      assert r == Dealing([p] + rest.players, rest.deck);
      assert r.players[1..] == rest.players;
      assert Hands(r.players) == multiset(p.hand) + Hands(rest.players);
      assert Hands(ps) == multiset(ps[0].hand) + Hands(ps[1..]);
      DealHandsConserves(ps[1..], dealt.rest);
      DealCardsConserves(d, StartingHandSize);
      assert multiset(p.hand) == multiset(ps[0].hand) + multiset(dealt.cards);
      DealStepAlgebra(multiset(ps[0].hand), Hands(ps[1..]), multiset(dealt.cards),
                      multiset(dealt.rest.cards), multiset(d.cards),
                      Hands(rest.players), multiset(rest.deck.cards));
    }
  }

  lemma SetupConserves(g: Game)
    requires Valid(g)
    ensures Inventory(SetupGame(g)) == Inventory(g)
  {
    var r := SetupGame(g);
    DealHandsConserves(g.players, g.deck);
    HandsDeckSwap(multiset(g.deck.cards), Hands(g.players), multiset(r.deck.cards), Hands(r.players),
                  multiset(g.discard));
  }

  lemma PutDownConserves(g: Game, card: Card)
    requires Valid(g) && card in g.players[g.current].hand
    ensures Inventory(PutDown(g, card)) == Inventory(g)
  {
    var r := PutDown(g, card);
    var p := g.players[g.current];
    var q := RemoveCard(p, card).player;
    RemoveCardTakesOneCopy(p, card);
    assert r.players == g.players[g.current := q];
    HandsShrink(g.players, g.current, q, multiset{card});
    assert multiset(r.discard) == multiset(g.discard) + multiset{card};
    HandToDiscard(multiset(g.deck.cards), Hands(g.players), multiset(g.discard),
                  Hands(r.players), multiset(r.discard), multiset{card});
  }

  lemma HandlePeakConserves(g: Game)
    requires Valid(g)
    ensures Inventory(HandlePeak(g)) == Inventory(g)
  {
    var r := HandlePeak(g);
    if NextActivePlayer(g).Some? {
      var t := NextActivePlayer(g).value;
      var dealt := DealCards(g.deck, PeakPenalty);
      DealCardsConserves(g.deck, PeakPenalty);
      assert r.players == g.players[t := r.players[t]];
      assert r.players[t].hand == g.players[t].hand + dealt.cards;
      assert r.deck == dealt.rest;
      HandsGrow(g.players, t, r.players[t], multiset(dealt.cards));
      assert r.deck == dealt.rest;
      DeckToHands(multiset(g.deck.cards), Hands(g.players), multiset(r.deck.cards), Hands(r.players),
                  multiset(g.discard), multiset(dealt.cards));
    }
  }

  lemma PenaltyConserves(g: Game)
    requires Valid(g)
    ensures Inventory(Penalty(g)) == Inventory(g)
  {
    var r := Penalty(g);
    if |g.deck.cards| > 0 {
      var top := g.deck.cards[|g.deck.cards| - 1];
      assert g.deck.cards == r.deck.cards + [top];
      assert r.players == g.players[g.current := r.players[g.current]];
      HandsGrow(g.players, g.current, r.players[g.current], multiset{top});
      DeckToHands(multiset(g.deck.cards), Hands(g.players), multiset(r.deck.cards), Hands(r.players),
                  multiset(g.discard), multiset{top});
    }
  }

  lemma AfterEffectsConserve(g: Game, card: Card)
    requires Valid(g) && card in g.players[g.current].hand
    ensures Inventory(AfterEffects(g, card)) == Inventory(g)
  {
    PutDownConserves(g, card);
    HandlePeakConserves(PutDown(g, card));
  }

  /** Playing a card, with its Peak pickup or its penalty card, only moves cards. */
  lemma PlayCardConserves(g: Game, who: nat, card: Card)
    requires Valid(g)
    ensures Inventory(PlayCard(g, who, card).game) == Inventory(g)
  {
    if PlayCard(g, who, card).ok {
      var g2 := AfterEffects(g, card);
      AfterEffectsConserve(g, card);
      var p := g2.players[g2.current];
      if |p.hand| == 0 {
        if CanFinishOnCard(card, g2.highCard) {
          var g3 := g2.(players := g2.players[g2.current := FinishGame(p)]);
          HandsSame(g2.players, g2.current, FinishGame(p));
        } else {
          PenaltyConserves(g2);
        }
      }
    }
  }

  /** Drawing moves the top card of the deck into the drawer's hand. */
  lemma DrawCardConserves(g: Game, who: nat)
    requires Valid(g)
    ensures Inventory(DrawCard(g, who).game) == Inventory(g)
  {
    var r := DrawCard(g, who);
    if r.ok {
      var top := g.deck.cards[|g.deck.cards| - 1];
      assert g.deck.cards == r.game.deck.cards + [top];
      assert r.game.players == g.players[who := r.game.players[who]];
      HandsGrow(g.players, who, r.game.players[who], multiset{top});
      DeckToHands(multiset(g.deck.cards), Hands(g.players), multiset(r.game.deck.cards), Hands(r.game.players),
                  multiset(g.discard), multiset{top});
    }
  }

  /** The actions a session can take on a game. */
  datatype Action = Setup | Play(who: nat, card: Card) | Draw(who: nat)

  function Apply(g: Game, a: Action): (r: Game)
    requires Valid(g)
    ensures Valid(r)
  {
    match a
    case Setup => SetupGame(g)
    case Play(who, card) => PlayCard(g, who, card).game
    case Draw(who) => DrawCard(g, who).game
  }

  /** The game after a sequence of actions, rejected ones included. */
  function Run(g: Game, actions: seq<Action>): (r: Game)
    requires Valid(g)
    decreases |actions|
  {
    if actions == [] then g else Run(Apply(g, actions[0]), actions[1..])
  }

  lemma ApplyConserves(g: Game, a: Action)
    requires Valid(g)
    ensures Inventory(Apply(g, a)) == Inventory(g)
    ensures FlagsKept(g.players, Apply(g, a).players)
  {
    match a
    case Setup => SetupConserves(g);
    case Play(who, card) => PlayCardConserves(g, who, card);
    case Draw(who) => DrawCardConserves(g, who);
  }

  /** Whatever the players do, the game keeps its shape, holds the same
      cards, and no name changes and no status flag is ever cleared. */
  lemma {:induction false} RunPreserves(g: Game, actions: seq<Action>)
    requires Valid(g)
    decreases |actions|
    ensures Valid(Run(g, actions))
    ensures Inventory(Run(g, actions)) == Inventory(g)
    ensures FlagsKept(g.players, Run(g, actions).players)
  {
    if actions == [] {
      assert FlagsKept(g.players, g.players);
    } else {
      var g1 := Apply(g, actions[0]);
      ApplyConserves(g, actions[0]);
      RunPreserves(g1, actions[1..]);
      FlagsKeptTransitive(g.players, g1.players, Run(g1, actions[1..]).players);
    }
  }

  /** Started from a freshly built deck (in any order), a game holds the
      twenty cards of that deck, one of each regular value and ten Peaks,
      after any sequence of actions. */
  lemma TwentyCardsForever(names: seq<string>, deck: Deck, actions: seq<Action>)
    requires |names| == MaxPlayers
    requires multiset(deck.cards) == multiset(CreateDeck().cards)
    ensures Valid(NewGame(names, deck).value)
    ensures Inventory(Run(NewGame(names, deck).value, actions)) == multiset(CreateDeck().cards)
    ensures CardCount(Run(NewGame(names, deck).value, actions)) == DeckSize
  {
    var g := NewGame(names, deck).value;
    NewGameHoldsDeck(names, deck);
    RunPreserves(g, actions);
    CountIsInventorySize(Run(g, actions));
    assert |multiset(CreateDeck().cards)| == DeckSize;
  }

  /** Setting up a new game on a twenty-card deck deals 7, 7, 6 and 0
      cards and empties the deck. */
  lemma SetupDealsSevenSevenSixNone(names: seq<string>, deck: Deck)
    requires |names| == MaxPlayers && |deck.cards| == DeckSize
    ensures var g := SetupGame(NewGame(names, deck).value);
            && |g.players[0].hand| == 7 && |g.players[1].hand| == 7
            && |g.players[2].hand| == 6 && |g.players[3].hand| == 0
            && g.deck.cards == []
  {
    var g0 := NewGame(names, deck).value;
    SetupDeals(g0);
    assert forall i :: 0 <= i < 4 ==> g0.players[i].hand == [];
  }
}

=== FILE: player.dfy ===
/** A player of the Peak card game: a hand and two sticky status flags
    (player.py). */
module Players {
  import opened Cards

  /** A hand holding more than this many cards disqualifies its owner. */
  const MaxHand := 20

  datatype Player = Player(name: string, hand: seq<Card>, isDisqualified: bool, hasFinished: bool) {

    /** Still in play: neither disqualified nor finished. */
    predicate IsActive() {
      !isDisqualified && !hasFinished
    }
  }

  /** `Player(name)`: an empty hand and no status flag set. */
  function NewPlayer(name: string): (p: Player)
    ensures p.name == name && p.hand == []
    ensures !p.isDisqualified && !p.hasFinished
    ensures p.IsActive()
  {
    Player(name, [], false, false)
  }

  /** Everything about `q` that `p` already had: same name, and neither
      status flag has been cleared. */
  predicate Keeps(p: Player, q: Player) {
    && q.name == p.name
    && (p.isDisqualified ==> q.isDisqualified)
    && (p.hasFinished ==> q.hasFinished)
  }

  /** `add_card`: append, and disqualify once the hand exceeds the limit. */
  function AddCard(p: Player, c: Card): (q: Player)
    ensures q.hand == p.hand + [c]
    ensures q.isDisqualified <==> p.isDisqualified || |q.hand| > MaxHand
    ensures q.hasFinished == p.hasFinished
    ensures Keeps(p, q)
  {
    var hand := p.hand + [c];
    p.(hand := hand, isDisqualified := if |hand| > MaxHand then true else p.isDisqualified)
  }

  /** `add_cards`: `add_card` for each card in order. */
  function AddCards(p: Player, cs: seq<Card>): (q: Player)
    decreases |cs|
    ensures q.hand == p.hand + cs
    ensures q.isDisqualified <==> p.isDisqualified || (|cs| > 0 && |p.hand| + |cs| > MaxHand)
    ensures q.hasFinished == p.hasFinished
    ensures Keeps(p, q)
  {
    if cs == [] then p
    else AddCards(AddCard(p, cs[0]), cs[1..])
  }

  /** Adding two batches one after the other is adding their concatenation. */
  lemma {:induction false} AddCardsConcat(p: Player, a: seq<Card>, b: seq<Card>)
    decreases |a|
    ensures AddCards(AddCards(p, a), b) == AddCards(p, a + b)
  {
    if a != [] {
      assert (a + b)[0] == a[0];
      assert (a + b)[1..] == a[1..] + b;
      AddCardsConcat(AddCard(p, a[0]), a[1..], b);
    }
  }

  /** Position of the first card equal to `c`. */
  function IndexOf(s: seq<Card>, c: Card): (i: nat)
    requires c in s
    ensures i < |s| && s[i] == c
    ensures forall j :: 0 <= j < i ==> s[j] != c
  {
    if s[0] == c then 0 else 1 + IndexOf(s[1..], c)
  }

  /** The result of `remove_card`: whether a card was removed, and the player. */
  datatype Removal = Removal(removed: bool, player: Player)

  /** `remove_card`: drop the first card equal to `c`; report False and
      change nothing when there is none. */
  function RemoveCard(p: Player, c: Card): (r: Removal)
    ensures r.removed <==> c in p.hand
    ensures !r.removed ==> r.player == p
    ensures r.removed ==>
      var i := IndexOf(p.hand, c);
      r.player.hand == p.hand[..i] + p.hand[i + 1..]
    ensures r.player.isDisqualified == p.isDisqualified
    ensures r.player.hasFinished == p.hasFinished
    ensures r.player.name == p.name
  {
    if c in p.hand then
      var i := IndexOf(p.hand, c);
      Removal(true, p.(hand := p.hand[..i] + p.hand[i + 1..]))
    else Removal(false, p)
  }

  /** Removing takes exactly one copy of the card out of the hand, and
      putting it back where it was restores the hand. */
  lemma RemoveCardTakesOneCopy(p: Player, c: Card)
    requires c in p.hand
    ensures |RemoveCard(p, c).player.hand| == |p.hand| - 1
    ensures multiset(RemoveCard(p, c).player.hand) == multiset(p.hand) - multiset{c}
    ensures var i := IndexOf(p.hand, c);
            var h := RemoveCard(p, c).player.hand;
            h[..i] + [c] + h[i..] == p.hand
  {
    var i := IndexOf(p.hand, c);
    var h := RemoveCard(p, c).player.hand;
    assert p.hand == p.hand[..i] + [c] + p.hand[i + 1..];
    assert h[..i] == p.hand[..i];
    assert h[i..] == p.hand[i + 1..];
  }

  /** `get_peak_cards`: the Peak cards of a hand, in hand order. */
  function PeakCards(s: seq<Card>): (r: seq<Card>)
    ensures |r| <= |s|
    ensures forall i :: 0 <= i < |r| ==> r[i].IsPeakCard()
    ensures forall c :: c in s && c.IsPeakCard() ==> c in r
  {
    if s == [] then []
    else if s[0].IsPeakCard() then [s[0]] + PeakCards(s[1..])
    else PeakCards(s[1..])
  }

  /** `get_regular_cards`: the non-Peak cards of a hand, in hand order. */
  function RegularCards(s: seq<Card>): (r: seq<Card>)
    ensures |r| <= |s|
    ensures forall i :: 0 <= i < |r| ==> !r[i].IsPeakCard()
    ensures forall c :: c in s && !c.IsPeakCard() ==> c in r
  {
    if s == [] then []
    else if !s[0].IsPeakCard() then [s[0]] + RegularCards(s[1..])
    else RegularCards(s[1..])
  }

  /** Peak and regular cards split a hand: together they are exactly the
      hand's cards. */
  lemma {:induction false} PeakRegularPartition(s: seq<Card>)
    decreases |s|
    ensures multiset(PeakCards(s)) + multiset(RegularCards(s)) == multiset(s)
    ensures |PeakCards(s)| + |RegularCards(s)| == |s|
  {
    if s != [] {
      PeakRegularPartition(s[1..]);
      assert s == [s[0]] + s[1..];
      assert multiset(s) == multiset{s[0]} + multiset(s[1..]);
    }
  }

  lemma SeqAssoc<T>(x: seq<T>, y: seq<T>, z: seq<T>)
    ensures x + (y + z) == (x + y) + z
  {
  }

  /** Selecting the Peak cards keeps hand order: selecting from a
      concatenation concatenates the selections. */
  lemma {:induction false} PeakCardsKeepOrder(a: seq<Card>, b: seq<Card>)
    decreases |a|
    ensures PeakCards(a + b) == PeakCards(a) + PeakCards(b)
  {
    if a == [] {
      assert a + b == b;
    } else {
      var ab := a + b;
      assert ab[0] == a[0] && ab[1..] == a[1..] + b;
      PeakCardsKeepOrder(a[1..], b);
      if a[0].IsPeakCard() {
        assert PeakCards(ab) == [a[0]] + PeakCards(a[1..] + b);
        assert PeakCards(a) == [a[0]] + PeakCards(a[1..]);
        SeqAssoc([a[0]], PeakCards(a[1..]), PeakCards(b));
      } else {
        assert PeakCards(ab) == PeakCards(a[1..] + b);
        assert PeakCards(a) == PeakCards(a[1..]);
      }
    }
  }

  /** Selecting the regular cards keeps hand order in the same way. */
  lemma {:induction false} RegularCardsKeepOrder(a: seq<Card>, b: seq<Card>)
    decreases |a|
    ensures RegularCards(a + b) == RegularCards(a) + RegularCards(b)
  {
    if a == [] {
      assert a + b == b;
    } else {
      var ab := a + b;
      assert ab[0] == a[0] && ab[1..] == a[1..] + b;
      RegularCardsKeepOrder(a[1..], b);
      if !a[0].IsPeakCard() {
        assert RegularCards(ab) == [a[0]] + RegularCards(a[1..] + b);
        assert RegularCards(a) == [a[0]] + RegularCards(a[1..]);
        SeqAssoc([a[0]], RegularCards(a[1..]), RegularCards(b));
      } else {
        assert RegularCards(ab) == RegularCards(a[1..] + b);
        assert RegularCards(a) == RegularCards(a[1..]);
      }
    }
  }

  /** Some card of `s` is one the card-level rule lets a hand end on. */
  function HasFinisher(s: seq<Card>): (r: bool)
    ensures r <==> exists i :: 0 <= i < |s| && CanFinishOn(s[i])
  {
    if s == [] then false
    else if CanFinishOn(s[0]) then true
    else
      assert forall i :: 1 <= i < |s| ==> s[i] == s[1..][i - 1];
      HasFinisher(s[1..])
  }

  /** `can_finish_game`. */
  function CanFinishGame(p: Player): (r: bool)
    ensures r <==> !p.isDisqualified && exists i :: 0 <= i < |p.hand| && CanFinishOn(p.hand[i])
    ensures r ==> |p.hand| > 0
  {
    if p.isDisqualified || p.hand == [] then false
    else HasFinisher(p.hand)
  }

  /** `disqualify`. */
  function Disqualify(p: Player): (q: Player)
    ensures q.isDisqualified && !q.IsActive()
    ensures q.hand == p.hand && q.hasFinished == p.hasFinished
    ensures Keeps(p, q)
  {
    p.(isDisqualified := true)
  }

  /** `finish_game`. */
  function FinishGame(p: Player): (q: Player)
    ensures q.hasFinished && !q.IsActive()
    ensures q.hand == p.hand && q.isDisqualified == p.isDisqualified
    ensures Keeps(p, q)
  {
    p.(hasFinished := true)
  }

  /** `reset`: the only operation that clears the status flags. */
  function ResetPlayer(p: Player): (q: Player)
    ensures q.hand == [] && !q.isDisqualified && !q.hasFinished
    ensures q.name == p.name
  {
    p.(hand := [], isDisqualified := false, hasFinished := false)
  }

  /** A reset player is indistinguishable from a new one of the same name. */
  lemma ResetIsNew(p: Player)
    ensures ResetPlayer(p) == NewPlayer(p.name)
  {
  }

  /** `is_active` follows the two flags: disqualifying or finishing takes a
      player out of play, only a reset brings them back, and moving cards in
      or out of the hand never makes an inactive player active. */
  lemma ActivityFollowsFlags(p: Player, c: Card, cs: seq<Card>)
    ensures p.IsActive() <==> !p.isDisqualified && !p.hasFinished
    ensures !Disqualify(p).IsActive() && !FinishGame(p).IsActive() && ResetPlayer(p).IsActive()
    ensures AddCard(p, c).IsActive() ==> p.IsActive()
    ensures AddCards(p, cs).IsActive() ==> p.IsActive()
    ensures RemoveCard(p, c).player.IsActive() <==> p.IsActive()
  {
  }
}

=== FILE: properties.dfy ===
/** Behavioural properties of the turn engine that relate several of its
    operations: how an emptied hand is resolved, who is named winner, where
    the turn rests, and that the offered options are exactly the legal
    actions. */
module GameProperties {
  import opened Wrappers
  import opened Cards
  import opened Players
  import opened Rules
  import opened PeakGame

  /** A play that the engine accepts. */
  predicate Accepted(g: Game, card: Card)
    requires Valid(g)
  {
    card in g.players[g.current].hand && CanPlayCard(card, LastPlayed(g))
  }

  /** The high-card flag is raised by the very card whose finish it gates,
      so within `play_card` the finishing table agrees with the card-level
      rule: 5, 6 and 8..10 always finish. */
  lemma FinishGateIsCardRule(g: Game, card: Card)
    requires Valid(g) && card in g.players[g.current].hand
    ensures CanFinishOnCard(card, AfterEffects(g, card).highCard) == CanFinishOn(card)
  {
    FinishTableRefinesCardRule(card, AfterEffects(g, card).highCard);
  }

  /** A play that empties the hand either finishes the player (game over,
      turn not advanced) or, when the card may not finish, hands back one
      penalty card if the deck has any and passes the turn. */
  lemma EmptiedHand(g: Game, card: Card)
    requires Valid(g) && Accepted(g, card)
    requires AfterEffects(g, card).players[g.current].hand == []
    ensures var r := PlayCard(g, g.current, card).game;
            CanFinishOn(card) ==>
              && r.players[g.current].hasFinished
              && r.current == g.current
              && r.gameOver
    ensures var r := PlayCard(g, g.current, card).game;
            !CanFinishOn(card) ==>
              && |r.players[g.current].hand| == Min(1, |AfterEffects(g, card).deck.cards|)
              && r.players[g.current].hasFinished == g.players[g.current].hasFinished
    ensures var r, g2 := PlayCard(g, g.current, card).game, AfterEffects(g, card);
            !CanFinishOn(card) ==>
              r.players == Penalty(g2).players && r.deck == Penalty(g2).deck
    ensures var r, g2 := PlayCard(g, g.current, card).game, AfterEffects(g, card);
            CanFinishOn(card) ==>
              && r.players == g2.players[g.current := FinishGame(g2.players[g.current])]
              && r.deck == g2.deck && r.round == g.round
  {
    FinishGateIsCardRule(g, card);
    var g2 := AfterEffects(g, card);
    if !CanFinishOn(card) {
      var g3 := Penalty(g2);
      assert PlayCard(g, g.current, card).game == Advance(g3);
    }
  }

  /** A play of a regular card that leaves the player holding cards takes
      the card's first copy out of their hand, touches no other seat and no
      deck, and passes the turn on from them; the high-card flag, raised by
      the card if it is high, survives only if the turn did not wrap. */
  lemma PlayPassesTurn(g: Game, card: Card)
    requires Valid(g) && Accepted(g, card) && !card.IsPeakCard()
    requires |g.players[g.current].hand| > 1
    ensures var r := PlayCard(g, g.current, card).game;
            && r.players[g.current] == RemoveCard(g.players[g.current], card).player
            && (forall i :: 0 <= i < |g.players| && i != g.current ==> r.players[i] == g.players[i])
            && r.deck == g.deck
            && TurnPassed(g.current, g.round, g.highCard || IsHighValueCard(card), g.gameOver, g.winner, r)
  {
    var g2 := AfterEffects(g, card);
    assert g2.players[g.current].hand != [];
  }

  /** Who wins when a play finishes a player: with two or more players
      still active, the finisher wins unless someone seated earlier had
      already finished; with exactly one still active, that other player is
      named winner and the finisher is not. */
  lemma FinishWinner(g: Game, card: Card)
    requires Valid(g) && Accepted(g, card)
    requires AfterEffects(g, card).players[g.current].hand == [] && CanFinishOn(card)
    ensures var r := PlayCard(g, g.current, card).game;
            ActiveCount(r.players) >= 2 && (forall j :: 0 <= j < g.current ==> !g.players[j].hasFinished) ==>
              r.winner == Some(g.current)
    ensures var r := PlayCard(g, g.current, card).game;
            ActiveCount(r.players) == 1 ==>
              r.winner.Some? && r.winner.value != g.current && r.players[r.winner.value].IsActive()
    ensures var r := PlayCard(g, g.current, card).game;
            ActiveCount(r.players) > 0 ==> r.winner.Some?
  {
    FinishGateIsCardRule(g, card);
    var g2 := AfterEffects(g, card);
    var g3 := g2.(players := g2.players[g2.current := FinishGame(g2.players[g2.current])]);
    assert PlayCard(g, g.current, card).game == CheckGameOver(g3);
    assert g3.players[g.current].hasFinished;
    assert forall j :: 0 <= j < g.current ==> g3.players[j].hasFinished == g.players[j].hasFinished;
  }

  /** After an accepted play the turn rests on an active player, unless
      nobody is active or the player who just finished still holds it. */
  lemma TurnRestsOnActive(g: Game, card: Card)
    requires Valid(g) && Accepted(g, card)
    ensures var r := PlayCard(g, g.current, card).game;
            || r.players[r.current].IsActive()
            || ActiveCount(r.players) == 0
            || (r.current == g.current && r.players[r.current].hasFinished && r.gameOver)
  {
    var g2 := AfterEffects(g, card);
    if g2.players[g2.current].hand == [] && CanFinishOnCard(card, g2.highCard) {
      FinishGateIsCardRule(g, card);
      EmptiedHand(g, card);
    }
  }

  /** The options offered to a player are exactly the actions the engine
      accepts from them. */
  lemma OptionsAreLegalActions(g: Game, who: nat, card: Card)
    requires Valid(g)
    ensures card in PlayerOptions(g, who).playable <==>
              PlayCard(g, who, card).ok && g.players[g.current].IsActive()
    ensures PlayerOptions(g, who).canDraw <==>
              DrawCard(g, who).ok && g.players[g.current].IsActive()
  {
  }
}

=== FILE: rules.dfy ===
/** The rule validator of the Peak card game: pure decisions about plays,
    finishes, disqualification and the winner (rules.py). */
module Rules {
  import opened Wrappers
  import opened Cards
  import opened Players

  /** Cards the next player picks up when a Peak card is played. */
  const PeakPenalty := 5

  /** Cards dealt to each player at setup. */
  const StartingHandSize := 7

  /** A game has exactly this many players (the minimum equals the maximum). */
  const MaxPlayers := 4
  const MinPlayers := 4

  function Abs(x: int): nat {
    if x < 0 then -x else x
  }

  /** `can_play_card`: a Peak card always goes; anything goes on an empty
      pile or on a Peak; otherwise the two values differ by at most one. */
  function CanPlayCard(card: Card, last: Option<Card>): (r: bool)
    ensures card.IsPeakCard() ==> r
    ensures last.None? ==> r
    ensures last.Some? && last.value.IsPeakCard() ==> r
    ensures !card.IsPeakCard() && last.Some? && !last.value.IsPeakCard() ==>
              (r <==> last.value.value - 1 <= card.value <= last.value.value + 1)
  {
    if card.IsPeakCard() then true
    else if last.None? then true
    else if last.value.IsPeakCard() then true
    else Abs(card.value - last.value.value) <= 1
  }

  /** Playability is symmetric: `a` may follow `b` exactly when `b` may
      follow `a`. */
  lemma PlayabilityIsSymmetric(a: Card, b: Card)
    ensures CanPlayCard(a, Some(b)) <==> CanPlayCard(b, Some(a))
  {
  }

  /** `can_finish_on_card`: the finishing table. */
  function CanFinishOnCard(card: Card, highCardPlayed: bool): (r: bool)
    ensures card.IsPeakCard() ==> !r
    ensures !card.IsPeakCard() && 1 <= card.value <= 4 ==> !r
    ensures !card.IsPeakCard() && 5 <= card.value <= 6 ==> r
    ensures !card.IsPeakCard() && 8 <= card.value <= 10 ==> (r <==> highCardPlayed)
    ensures !card.IsPeakCard() && !(1 <= card.value <= 6) && !(8 <= card.value <= 10) ==> !r
  {
    if card.IsPeakCard() then false
    else if 1 <= card.value <= 4 then false
    else if 5 <= card.value <= 6 then true
    else if 8 <= card.value <= 10 then highCardPlayed
    else if card.value == 7 then false
    else false
  }

  /** The game-level table refines the card-level rule: it never allows
      more, and once a high card has been played it allows exactly as much. */
  lemma FinishTableRefinesCardRule(card: Card, highCardPlayed: bool)
    ensures CanFinishOnCard(card, highCardPlayed) ==> CanFinishOn(card)
    ensures CanFinishOnCard(card, true) == CanFinishOn(card)
    ensures !highCardPlayed ==>
              (CanFinishOnCard(card, false) <==> CanFinishOn(card) && !(8 <= card.value <= 10))
  {
  }

  /** `should_disqualify_player`. */
  predicate ShouldDisqualify(p: Player) {
    |p.hand| > MaxHand
  }

  /** The threshold is strict: twenty cards are allowed, twenty-one are
      not, and `add_card` raises the flag exactly when the rule says so. */
  lemma DisqualifyThreshold(p: Player, c: Card)
    ensures |p.hand| == 20 ==> !ShouldDisqualify(p)
    ensures |p.hand| == 21 ==> ShouldDisqualify(p)
    ensures AddCard(p, c).isDisqualified <==> p.isDisqualified || ShouldDisqualify(AddCard(p, c))
  {
  }

  /** `is_high_value_card`. */
  predicate IsHighValueCard(card: Card) {
    !card.IsPeakCard() && 8 <= card.value <= 10
  }

  /** High cards are exactly the cards on which the finishing table
      consults the flag. */
  lemma HighCardsAreGated(card: Card)
    ensures IsHighValueCard(card) <==> CanFinishOnCard(card, true) && !CanFinishOnCard(card, false)
  {
  }

  /** How many players are active. */
  function ActiveCount(ps: seq<Player>): (n: nat)
    ensures n <= |ps|
    ensures n == 0 <==> forall i :: 0 <= i < |ps| ==> !ps[i].IsActive()
  {
    if ps == [] then 0
    else
      assert forall i :: 1 <= i < |ps| ==> ps[i] == ps[1..][i - 1];
      (if ps[0].IsActive() then 1 else 0) + ActiveCount(ps[1..])
  }

  /** Two different active players make the count at least two. */
  lemma {:induction false} TwoActive(ps: seq<Player>, i: nat, j: nat)
    requires i < j < |ps|
    requires ps[i].IsActive() && ps[j].IsActive()
    ensures ActiveCount(ps) >= 2
  {
    if i > 0 {
      TwoActive(ps[1..], i - 1, j - 1);
    } else {
      assert ps[1..][j - 1] == ps[j];
    }
  }

  /** Index of the first active player, if any. */
  function FirstActive(ps: seq<Player>): (r: Option<nat>)
    ensures r.Some? ==> r.value < |ps| && ps[r.value].IsActive()
    ensures r.Some? ==> forall j :: 0 <= j < r.value ==> !ps[j].IsActive()
    ensures r.None? ==> forall j :: 0 <= j < |ps| ==> !ps[j].IsActive()
  {
    if ps == [] then None
    else if ps[0].IsActive() then Some(0)
    else
      assert forall i :: 1 <= i < |ps| ==> ps[i] == ps[1..][i - 1];
      match FirstActive(ps[1..])
      case None => None
      case Some(k) => Some(k + 1)
  }

  /** Index of the first finished player, if any. */
  function FirstFinished(ps: seq<Player>): (r: Option<nat>)
    ensures r.Some? ==> r.value < |ps| && ps[r.value].hasFinished
    ensures r.Some? ==> forall j :: 0 <= j < r.value ==> !ps[j].hasFinished
    ensures r.None? ==> forall j :: 0 <= j < |ps| ==> !ps[j].hasFinished
  {
    if ps == [] then None
    else if ps[0].hasFinished then Some(0)
    else
      assert forall i :: 1 <= i < |ps| ==> ps[i] == ps[1..][i - 1];
      match FirstFinished(ps[1..])
      case None => None
      case Some(k) => Some(k + 1)
  }

  /** `get_winner`, naming the winner by position: the only active player
      if there is exactly one; nobody if none is active; otherwise the
      first player in seat order who has finished, if any. */
  function GetWinner(ps: seq<Player>): (r: Option<nat>)
    ensures r.Some? ==> r.value < |ps|
    ensures ActiveCount(ps) == 1 ==>
              r.Some? && ps[r.value].IsActive()
              && forall j :: 0 <= j < |ps| && j != r.value ==> !ps[j].IsActive()
    ensures ActiveCount(ps) == 0 ==> r.None?
    ensures ActiveCount(ps) >= 2 ==>
              (r.Some? <==> exists j :: 0 <= j < |ps| && ps[j].hasFinished)
    ensures ActiveCount(ps) >= 2 && r.Some? ==>
              ps[r.value].hasFinished && forall j :: 0 <= j < r.value ==> !ps[j].hasFinished
  {
    var n := ActiveCount(ps);
    if n == 1 then
      var first := FirstActive(ps);
      assert forall j :: 0 <= j < |ps| && j != first.value ==> !ps[j].IsActive() by {
        forall j | 0 <= j < |ps| && j != first.value && ps[j].IsActive()
          ensures false
        {
          TwoActive(ps, first.value, j);
        }
      }
      first
    else if n == 0 then None
    else FirstFinished(ps)
  }

  /** A rule violation reported by `validate_game_state`. */
  datatype Violation = ShouldBeDisqualified(name: string) | GameShouldEnd

  /** A player holding too many cards who has not yet been flagged. */
  predicate Overfull(p: Player) {
    !p.isDisqualified && ShouldDisqualify(p)
  }

  /** Every message in `r` is a disqualification. */
  predicate OnlyDisqualifications(r: seq<Violation>) {
    forall k :: 0 <= k < |r| ==> r[k].ShouldBeDisqualified?
  }

  /** Every overfull player of `ps` has a message in `r`. */
  predicate AllReported(ps: seq<Player>, r: seq<Violation>) {
    forall i :: 0 <= i < |ps| && Overfull(ps[i]) ==> ShouldBeDisqualified(ps[i].name) in r
  }

  /** Every disqualification message in `r` names an overfull player of `ps`. */
  predicate OnlyOverfullNamed(ps: seq<Player>, r: seq<Violation>) {
    forall k :: 0 <= k < |r| && r[k].ShouldBeDisqualified? ==>
      exists i :: 0 <= i < |ps| && Overfull(ps[i]) && r[k].name == ps[i].name
  }

  /** Nobody in `ps` is overfull. */
  predicate NoneOverfull(ps: seq<Player>) {
    forall i :: 0 <= i < |ps| ==> !Overfull(ps[i])
  }

  /** The message, if any, for one seat. */
  function MessageFor(p: Player): seq<Violation> {
    if Overfull(p) then [ShouldBeDisqualified(p.name)] else []
  }

  /** The seat-by-seat walk of `validate_game_state`'s first loop. */
  function SeatMessages(ps: seq<Player>): seq<Violation> {
    if ps == [] then [] else MessageFor(ps[0]) + SeatMessages(ps[1..])
  }

  /** What the walk reports, seat by seat. */
  lemma {:induction false} SeatMessagesFacts(ps: seq<Player>)
    ensures var r := SeatMessages(ps);
            && |r| <= |ps| && OnlyDisqualifications(r) && AllReported(ps, r)
            && OnlyOverfullNamed(ps, r) && (r == [] <==> NoneOverfull(ps))
  {
    if ps != [] {
      SeatMessagesFacts(ps[1..]);
      MessagesCons(ps, SeatMessages(ps[1..]));
    }
  }

  /** One disqualification message per overfull player, in seat order. */
  function OverfullMessages(ps: seq<Player>): (r: seq<Violation>)
    ensures |r| <= |ps|
    ensures OnlyDisqualifications(r)
    ensures AllReported(ps, r)
    ensures OnlyOverfullNamed(ps, r)
    ensures r == [] <==> NoneOverfull(ps)
  {
    SeatMessagesFacts(ps);
    SeatMessages(ps)
  }

  /** The message facts for the later seats extend to the whole table once
      the first seat's message is put in front. */
  lemma MessagesCons(ps: seq<Player>, rest: seq<Violation>)
    requires ps != []
    requires OnlyDisqualifications(rest) && AllReported(ps[1..], rest) && OnlyOverfullNamed(ps[1..], rest)
    requires rest == [] <==> NoneOverfull(ps[1..])
    ensures var r := MessageFor(ps[0]) + rest;
            && OnlyDisqualifications(r) && AllReported(ps, r) && OnlyOverfullNamed(ps, r)
            && (r == [] <==> NoneOverfull(ps))
  {
    assert forall i :: 1 <= i < |ps| ==> ps[i] == ps[1..][i - 1];
  }

  /** Appending the game-end message, if any, keeps the disqualification
      facts and adds exactly that one message. */
  lemma EndAppended(ps: seq<Player>, m: seq<Violation>, e: seq<Violation>)
    requires OnlyDisqualifications(m) && AllReported(ps, m) && OnlyOverfullNamed(ps, m)
    requires e == [] || e == [GameShouldEnd]
    ensures AllReported(ps, m + e) && OnlyOverfullNamed(ps, m + e)
    ensures multiset(m + e)[GameShouldEnd] == |e|
    ensures GameShouldEnd in m + e <==> e != []
  {
    assert GameShouldEnd !in m;
  }

  /** `validate_game_state`. */
  function ValidateGameState(ps: seq<Player>): (r: seq<Violation>)
    ensures r == OverfullMessages(ps) + (if ActiveCount(ps) <= 1 then [GameShouldEnd] else [])
    ensures multiset(r)[GameShouldEnd] == if ActiveCount(ps) <= 1 then 1 else 0
    ensures GameShouldEnd in r <==> ActiveCount(ps) <= 1
    ensures |r| <= |ps| + 1
    ensures r == [] <==> ActiveCount(ps) >= 2 && NoneOverfull(ps)
    ensures AllReported(ps, r)
    ensures OnlyOverfullNamed(ps, r)
  {
    var m := OverfullMessages(ps);
    var e := if ActiveCount(ps) <= 1 then [GameShouldEnd] else [];
    EndAppended(ps, m, e);
    m + e
  }

  /** A message for one seat: exactly one when that player is overfull. */
  lemma OverfullMessagesSingle(p: Player)
    ensures OverfullMessages([p]) == if Overfull(p) then [ShouldBeDisqualified(p.name)] else []
  {
    assert [p][1..] == [];
  }

  lemma {:induction false} SeatMessagesConcat(a: seq<Player>, b: seq<Player>)
    ensures SeatMessages(a + b) == SeatMessages(a) + SeatMessages(b)
  {
    if a == [] {
      assert a + b == b;
    } else {
      assert (a + b)[0] == a[0] && (a + b)[1..] == a[1..] + b;
      SeatMessagesConcat(a[1..], b);
      SeqAssoc(MessageFor(a[0]), SeatMessages(a[1..]), SeatMessages(b));
    }
  }

  /** The messages follow seat order, one per overfull seat: checking two
      runs of seats concatenates their messages. */
  lemma OverfullMessagesConcat(a: seq<Player>, b: seq<Player>)
    ensures OverfullMessages(a + b) == OverfullMessages(a) + OverfullMessages(b)
  {
    SeatMessagesConcat(a, b);
  }
}

=== FILE: wrappers.dfy ===
/** Small failure-compatible wrappers shared by the rest of the model.
    `Option` stands for Python's `Optional[...]` (None or a value) and
    `Result` for a constructor that may raise. */
module Wrappers {

  datatype Option<T> = None | Some(value: T)

  datatype Result<T, E> = Ok(value: T) | Err(error: E)
}
